=== FILE: README.md ===
# sardine, modelled in Dafny

sardine is a SQL migration tool. A migration is a directory named
`<date>_<time>_<suffix>`. It holds numbered step files under `up/` and `down/`.
The tool runs a migration's steps forward (up) or backward (down), one
transaction per migration, and keeps one row per migration in a state table:
name, `applied`, `migration_time` and checksum.

This project models the core of that tool as pure functions over immutable
data:

- **Batch selection** (`Filters`): which discovered migrations go up, which go
  down, and which one is current.
- **Authoring helpers** (`Actions`, `Dates`, `Util`): names of new migration
  directories and step files, and the annotated `current` listing.
- **Type normaliser** (`Types`): per-driver SQL encodings.
- **Discovery's record assembly** (`Finder`): checksum rollup, pairing check,
  and the migration record.
- **Driver protocol** (`Drivers`, `Pg`):
  - the statement traces of `query` and `transaction`;
  - Postgres placeholder renumbering;
  - the create statement.
- **Persistence model** (`Persistence`): the driver registry, idempotent
  connect and disconnect, and the statement builders.
- **Orchestrator** (`Migrations`):
  - the tamper check;
  - update and rollback batches;
  - applying a batch migration by migration, with the post-commit row update
    or insert.

The model abstracts the outside world as follows:

- **Database server**: an oracle `exec: Stmt -> Result<Reply, string>`. It
  answers each statement with a reply or a backend error code.
- **Statement traces**: a run records the statements issued and the closing of
  the connection.
- **State table**: a `seq<Row>`.
- **Checksum function (SHA-1)**: a parameter `hash: seq<string> -> string`.
- **Clock**: a `Date` parameter. A date is a record of integer components.
- **Fuzzy migration lookup used by `step`**: a parameter.
- **Driver's connect and disconnect**: answers passed in as `Outcome<string>`.
- **JavaScript values**: a small `Value` datatype, used where the code relies
  on truthiness or coercion.

Supporting modules:

- `Wrappers`: `Option`, `Result` and `Outcome`.
- `Text`:
  - decimal rendering and parsing;
  - lodash `padLeft`;
  - `String.prototype.replace` with a string pattern, which replaces the first
    occurrence and expands `$` patterns.
- `Seqs`: subsequence and reverse.
- `JsValues`: JavaScript values and truthiness.
- `JsDate`: the date record.
- `Records`: migrations, step files and rows.
- `Errors`: the error classes.

Behaviour of the code as written (the model follows the code):

- Milliseconds are not padded in `paddedDateList`, so the datetime literal ends
  in `.5`, not `.005`.
- `verifyLock` checks only the latest migration and looks rows up by a field
  `n` that table rows never carry, so on rows read from the table it never
  fails. It does not exempt the latest migration. The batches gate on it as
  written. See Findings.
- An unknown driver is rejected with the message `Unknown driver undefined`,
  whatever its name. See Findings.
- `step` never checks its lookup, so there is no migration-not-found error.
  With no suffixes a failed lookup gives an empty list; with suffixes it is a
  `TypeError` from reading `steps` of `undefined`.
- `disconnect` on a model that is not connected is a no-op. It does not raise
  an error.
- Discovery does not sort directory names. Batches come out in the order of
  the `discovered` list they are given.
- The Persistence model's statements name the configured table as is. The pg
  driver's create statement uses the schema-qualified name `migrations.<t>`.
  `Drivers.TableName` and the builders in `Persistence` show both.

## Model

| member | source | states |
|---|---|---|
| Util.TwoDigits | lib/util.jsx:3-5 | the result is at least two digits long and never truncated. 0..9 become "0" followed by the digit; 10 and above are the plain decimal |
| Util.TwoDigitsRoundTrip | lib/util.jsx:3-5 | reading the padded text back as a decimal gives n again |
| Util.TwoDigitsLength | lib/util.jsx:3-5 | below 100 the padded text has exactly two characters |
| Util.SnakeDate | lib/util.jsx:7-18 | the text starts with the year as printed, followed by at least 11 characters: five padded components and `_`. Its exact layout is in Dates.SnakeShape |
| Dates.PaddedDateList | lib/date.jsx:3-14 | seven elements. The first is the unpadded year and the last the unpadded milliseconds; the five in between are digit strings of length at least two |
| Dates.PaddedDateListRoundTrip | lib/date.jsx:3-14 | reading the list back gives year, month+1, day, hours, minutes, seconds and ms of the date |
| Dates.PaddedDateListShape | lib/date.jsx:3-14 | for a four-digit year and in-range components: four characters, then five times two |
| Dates.Snake | lib/date.jsx:16-19 | the snake date equals `util.snakeDate` of the same date, two independently written functions |
| Dates.SnakeShape | lib/date.jsx:16-19 | for a four-digit year and in-range components the snake date has 15 characters, `_` at index 8 and digits elsewhere; milliseconds are absent |
| Dates.SnakeRoundTrip | lib/date.jsx:16-19 | the snake date parses back to the date's year, month+1, day, hours, minutes and seconds |
| Dates.SnakeInjective | lib/date.jsx:16-19 | two in-range dates with the same snake date agree on every component but milliseconds |
| Dates.SnakeDateAgrees | lib/util.jsx:7-18 | `util.snakeDate` and `date.snake` give the same text for every date |
| Actions.Create | lib/actions.jsx:24-33 | the up and down directories are `up` and `down` joined under the root directory; the root directory itself is described by CreateRootDirRoundTrip |
| Actions.CreateRootDirRoundTrip | lib/actions.jsx:24-33 | the root directory is the 15-character snake date, `_`, then the suffix unchanged, and its date part parses back to the creation date |
| Actions.Step | lib/actions.jsx:35-47 | the lookup result is never checked: with no suffixes the result is an empty list even when the lookup fails; with suffixes, a failed lookup is a TypeError from reading `steps` of `undefined`, and that is the only error. Otherwise there are 2·\|suffixes\| paths: all up paths, then all down paths. Path i is `name/up/` (or `name/down/`) followed by twoDigits(steps+i+1)_suffix.sql, so both halves use the same file names in the same order |
| Actions.DirectionPaths | lib/actions.jsx:40-43 | one path per suffix, in suffix order, numbered after the existing steps |
| Actions.State | lib/actions.jsx:56-67 | \|discovered\|+1 entries. The first is `initial` with initial=true; the rest are the discovered names in order with initial=false |
| Actions.StateNothingApplied | lib/actions.jsx:56-67 | when no row is applied, `initial` is the only current entry |
| Actions.StateCurrentAsWritten | lib/actions.jsx:56-67 | when row k is the last applied one, entry k of the listing is the one marked current, one position before the migration recorded at k. Past the end, every entry is current |
| Actions.StateOffByOneExample | lib/actions.jsx:56-67 | with four migrations and the first two applied, the first migration is marked current and the second is not |
| Actions.StateIntended | lib/actions.jsx:56-67 | corrected listing with the same shape as `state`: `initial` first, then the discovered names in order, only the sentinel initial. Which entry is current is in StateIntendedAgreesWithCurrent |
| Actions.StateIntendedAgreesWithCurrent | lib/actions.jsx:56-67 | the corrected listing marks only `initial` when nothing is applied; otherwise it marks exactly the migration `current` selects |
| Filters.FindByName | lib/filters.jsx:5 | no row is found exactly when no row has that name; a found row has that name |
| Filters.FindUnapplied | lib/filters.jsx:6 | found exactly when some row of that name has a falsy `applied` |
| Filters.FindApplied | lib/filters.jsx:14 | found exactly when some row of that name has `applied === true` |
| Filters.Update | lib/filters.jsx:3-10 | a subsequence of `discovered` in original order. A migration is kept iff no row has its name or some row with its name has a falsy `applied` |
| Filters.Rollback | lib/filters.jsx:12-15 | a subsequence of `discovered` in original order. A migration is kept iff some row with its name has `applied === true` |
| Filters.UpdateIdempotent | lib/filters.jsx:3-10 | filtering the update batch again with the same rows changes nothing |
| Filters.RollbackIdempotent | lib/filters.jsx:12-15 | filtering the rollback batch again with the same rows changes nothing |
| Filters.PendingIffNotApplied | lib/filters.jsx:5-14 | with boolean `applied` and at most one row per name, a migration goes up iff it does not go down |
| Filters.UpdateRollbackPartition | lib/filters.jsx:3-15 | with clean rows the two batches together are exactly the discovered migrations, as multisets, and no migration is in both |
| Filters.LastAppliedIndex | lib/filters.jsx:18 | the position of the last row with `applied === true`, or -1 |
| Filters.Current | lib/filters.jsx:17-20 | a found migration is one of `discovered` |
| Filters.CurrentWhenNothingApplied | lib/filters.jsx:17-20 | with no applied row: the first discovered migration, or nothing when there are none |
| Filters.CurrentIsLastApplied | lib/filters.jsx:17-20 | with row k the last applied one: `discovered[k]`, or nothing when k is out of range |
| Types.BooleanToSQL | lib/db/types.jsx:20-46 | unchanged for every driver but mysql. On mysql, true becomes 1 and false becomes 0 |
| Types.BooleanToJS | lib/db/types.jsx:20-46 | decoding keeps the truthiness of the stored value on every driver; on mysql the result is always a boolean, elsewhere the value unchanged |
| Types.BooleanRoundTrip | lib/db/types.jsx:20-46 | decoding an encoded boolean gives it back, on every driver |
| Types.StringToSQL | lib/db/types.jsx:48-64 | fails exactly for `undefined`; `null` stays `null`; any other value becomes a string |
| Types.StringToJS | lib/db/types.jsx:48-64 | the stored value comes back as it is, on every driver |
| Types.StringRoundTrip | lib/db/types.jsx:48-64 | decoding an encoded string gives it back, on every driver |
| Types.DateTimeToSQL | lib/db/types.jsx:66-80 | the literal joins the seven `paddedDateList` parts with `-`, `-`, space, `:`, `:`, `.`. Whatever the date, it opens with the year as printed and `-` and closes with `.` and the milliseconds |
| Types.DateTimeDriverIndependent | lib/db/types.jsx:66-80 | the datetime literal is the same for every driver |
| Types.DateTimeMatchesSnake | lib/db/types.jsx:66-80 | for in-range dates, the literal's digits are the snake date's in fixed positions, followed by `.` and the unpadded milliseconds |
| Finder.DirectionChecksum | lib/finder.jsx:59-66 | no files give the empty text; the rollup for a non-empty list is DirectionChecksumRollup |
| Finder.DirectionChecksumRollup | lib/finder.jsx:59-66 | for a non-empty list: the hash of the per-file hashes of (filename, contents), concatenated in list order |
| Finder.DirectionChecksumOfStoredSums | lib/finder.jsx:59-66 | for files read through `readFile` the rollup equals the hash of their stored checksums concatenated |
| Finder.DirectionChecksumContentOnly | lib/finder.jsx:59-66 | lists with the same names and contents in the same order have the same checksum |
| Finder.CheckIntegrity | lib/finder.jsx:40 | passes iff the down files are as many as the up files, with pairwise equal names |
| Finder.Read | lib/finder.jsx:39-49 | a record exists exactly when the pairing holds. It keeps the name and both file lists unchanged and counts the up files as its steps; otherwise the error is an IntegrityError |
| Finder.ReadWellFormed | lib/finder.jsx:39-49 | every record is well formed: both direction checksums roll up from their files and the migration checksum is hash(upSum, downSum). The checksum depends only on file names and contents |
| Pg.Pieces | lib/db/drivers/pg.jsx:50-56 | one piece more than there are `?`, and no piece contains `?` |
| Pg.PiecesJoin | lib/db/drivers/pg.jsx:50-56 | joining the pieces with `?` gives the statement back |
| Pg.PiecesOfJoin | lib/db/drivers/pg.jsx:50-56 | splitting a join of `?`-free pieces gives the pieces back |
| Pg.Renumber | lib/db/drivers/pg.jsx:50-56 | no `?` is left, and a statement without `?` is unchanged |
| Pg.Sql | lib/db/drivers/pg.jsx:50-56 | no `?` is left, and a statement without `?` passes unchanged. The numbering is SqlNumbersPlaceholders |
| Pg.SqlNumbersPlaceholders | lib/db/drivers/pg.jsx:50-56 | the output is the statement's pieces, in order, separated by `$1`, `$2`, ..., one for each `?` |
| Pg.TableName | lib/db/drivers/pg.jsx:62-64 | the configured name can be cut back out after the `migrations.` schema prefix |
| Drivers.Registry | lib/db/drivers/index.jsx:5-8 | a name is registered exactly when it is the `getName()` of some driver variant (`pg`, `sqlite3`), and it resolves to that variant |
| Drivers.RegistryRoundTrip | lib/db/drivers/index.jsx:5-8 | looking a variant up by its own `getName()` finds that variant |
| Drivers.Sql | lib/db/drivers/driver.jsx:71-73 | the identity for sqlite3; for pg, no `?` is left |
| Drivers.ResultOf | lib/db/drivers/driver.jsx:75-77 | the base driver passes the reply on unchanged; pg hands back the `rows` of its result object. A pg reply without a result object, which the pg client never gives, is left unspecified |
| Drivers.ResultNormalises | lib/db/drivers/pg.jsx:58-60 | for either backend a native reply comes out as its row list |
| Drivers.CreateStatement | lib/db/drivers/driver.jsx:87-89 | for a table name without `$`, the create statement is the template with the driver's table name in place of the placeholder |
| Drivers.RunQueries | lib/db/drivers/driver.jsx:55-63 | without failure, every query is issued through `sql()` in list order |
| Drivers.RunQueriesStopsAtFirstFailure | lib/db/drivers/driver.jsx:55-63 | when query k fails first, queries 0..k are issued in order, nothing after, and the failure names query k |
| Drivers.Transaction | lib/db/drivers/driver.jsx:47-69 | BEGIN comes first and the close last. A committed transaction issued BEGIN, the create statement, every query in order, then COMMIT |
| Drivers.TransactionClosesOnce | lib/db/drivers/driver.jsx:67 | the connection is closed exactly once, at the end, on every path |
| Drivers.TransactionBeginRejected | lib/db/drivers/driver.jsx:50-68 | a rejected BEGIN: BEGIN, then close, and the backend's error |
| Drivers.TransactionCreateRejected | lib/db/drivers/driver.jsx:50-68 | a rejected create statement: BEGIN, create, close, no query, and the backend's error |
| Drivers.TransactionCommits | lib/db/drivers/driver.jsx:51-66 | BEGIN and create accepted and all queries accepted: BEGIN, create, the queries, COMMIT, close. The outcome is COMMIT's reply, or its error when COMMIT is rejected |
| Drivers.TransactionRollsBack | lib/db/drivers/driver.jsx:55-63 | BEGIN and create accepted, query k rejected first: BEGIN, create, queries 0..k, ROLLBACK, close. The QueryError carries the backend's code and query k's label and SQL, unless ROLLBACK itself is rejected, whose error surfaces instead |
| Drivers.RunQuery | lib/db/drivers/driver.jsx:35-45 | the create statement first and the close last, exactly once. On success, the caller's statement is translated and its reply passed through `result()` |
| Persistence.New | lib/db/model.jsx:15-26 | a model exists exactly for registered drivers, starting disconnected, with the configured table, the driver variant whose name was configured and that driver name for the types. Otherwise a ReferenceError with the message `Unknown driver undefined`, whatever the name |
| Persistence.NewIntended | lib/db/model.jsx:15-26 | corrected constructor: the same models for registered drivers, and a ReferenceError whose message names the unknown driver |
| Persistence.NewIntendedNamesDriver | lib/db/model.jsx:17-20 | for two unknown drivers the constructor as written gives the same error, and the corrected one gives the same error exactly when the names are equal |
| Persistence.UnknownDriverMessageLosesName | lib/db/model.jsx:20 | as written, two different unknown drivers get the same message |
| Persistence.UnknownDriverMessageInjective | lib/db/model.jsx:20 | the corrected message tells any two driver names apart |
| Persistence.Connect | lib/db/model.jsx:28-34 | when connected: no call and nothing changes. Otherwise the driver's connect is called once; success is exactly ending connected |
| Persistence.Disconnect | lib/db/model.jsx:36-42 | when not connected: no call and nothing changes. Otherwise the driver's disconnect is called once |
| Persistence.ConnectIdempotent | lib/db/model.jsx:28-34 | after a successful connect, a second connect makes no call |
| Persistence.DisconnectIdempotent | lib/db/model.jsx:36-42 | after a successful disconnect, a second makes no call |
| Persistence.DisconnectUndoesConnect | lib/db/model.jsx:28-42 | connecting then disconnecting returns the model to its starting state |
| Persistence.Perform | lib/db/model.jsx:55-57 | connect comes before any statement, and no statement is sent unless the connection succeeded and the statement was built. On success the calls are connect (if needed), create, the translated statement, close |
| Persistence.InsertStatement | lib/db/model.jsx:52-66 | fails exactly when name or checksum is `undefined`. The parameters are string(name), boolean(applied), dateTime(migration_time), string(checksum), encoded for the driver; placeholders and parameters agree in number |
| Persistence.InsertParamsDecode | lib/db/model.jsx:57-64 | the encoded name, applied flag and checksum decode back to the caller's values on every driver |
| Persistence.UpdateStatement | lib/db/model.jsx:68-73 | the parameters are [applied, name]. The first placeholder follows `applied = ` and the second follows ` WHERE name = ` |
| Persistence.FindAllByNameStatement | lib/db/model.jsx:75-78 | no parameters; `SELECT * FROM `, then the configured table, then ` ORDER BY name`, so the table can be cut back out |
| Persistence.CountAllStatement | lib/db/model.jsx:80-84 | no parameters; `SELECT COUNT(*) AS count FROM ` followed by the configured table, the alias `count` being the column `countAll` reads |
| Persistence.DropTableStatement | lib/db/model.jsx:86-89 | no parameters; `DROP TABLE ` followed by the configured table |
| Persistence.FixedStatementsNameTheirTable | lib/db/model.jsx:75-89 | for each of the three fixed statements, two models build the same statement exactly when their tables are the same |
| Persistence.CountAll | lib/db/model.jsx:80-84 | success means the query answered at least one row, and the result is the first |
| Persistence.LastAppliedStatement | lib/db/model.jsx:91-99 | always starts with the applied-rows-newest-first query, and ends in ` LIMIT 1` exactly when `limit` is truthy |
| Persistence.Insert | lib/db/model.jsx:52-66 | success implies both strings were encodable and the model is connected |
| Persistence.Update | lib/db/model.jsx:68-73 | success implies the model is connected |
| Persistence.FindAllByName | lib/db/model.jsx:75-78 | success implies the model is connected |
| Persistence.DropTable | lib/db/model.jsx:86-89 | success implies the model is connected |
| Persistence.FindLastAppliedMigrations | lib/db/model.jsx:91-100 | success implies the model is connected |
| Migrations.FindByKey | lib/migrations.jsx:27 | a row is found exactly when some row carries `n` equal to the name |
| Migrations.VerifyLock | lib/migrations.jsx:23-36 | never fails on an empty list. It fails iff some migration named like the last one has a keyed row with another checksum, and the error names the last migration |
| Migrations.VerifyLockIgnoresTableRows | lib/migrations.jsx:23-36 | against rows without `n`, which is every row read from the table, it always passes |
| Migrations.VerifyLockMissesOlderEdit | lib/migrations.jsx:23-36 | an edited, recorded, non-latest migration passes the check as written and fails the corrected one |
| Migrations.TamperCheck | lib/migrations.jsx:23-36 | corrected check: passes iff no migration but the last has a row of its name with another checksum; the error names an offending migration |
| Migrations.TamperCheckExemptsLatest | lib/migrations.jsx:23-36 | replacing the last migration by anything leaves the verdict unchanged |
| Migrations.GetUpdateBatch | lib/migrations.jsx:38-45 | fails iff `verifyLock` as written fails, with the IntegrityError naming the latest migration; otherwise the rows and `filters.update`'s batch |
| Migrations.RollbackBatch | lib/migrations.jsx:51-52 | `filters.rollback`'s batch reversed: same length, element i is element \|b\|-1-i |
| Migrations.RollbackBatchSameMigrations | lib/migrations.jsx:51-52 | the reversed batch holds the same migrations as `filters.rollback`'s, each as often |
| Migrations.GetRollbackBatch | lib/migrations.jsx:47-55 | fails iff `verifyLock` as written fails, with the IntegrityError naming the latest migration; otherwise the reversed rollback batch |
| Migrations.BatchesIgnoreTamperOnTableRows | lib/migrations.jsx:38-55 | on rows read from the table (no `n`), both batches are always selected, whatever the checksums |
| Migrations.GetUpdateBatchIntended | lib/migrations.jsx:38-45 | corrected: fails iff the corrected tamper check fails, naming a tampered migration other than the latest; otherwise the same batch |
| Migrations.GetRollbackBatchIntended | lib/migrations.jsx:47-55 | corrected: fails iff the corrected tamper check fails, naming a tampered migration other than the latest; otherwise the same reversed batch |
| Migrations.IntendedBatchesAgreeWhenUntampered | lib/migrations.jsx:23-55 | on table rows that pass the corrected check, the corrected and the as-written batch functions give the same result |
| Migrations.RunOrder | lib/migrations.jsx:85-90 | up runs the up files as listed; down runs the down files in reverse |
| Migrations.DownIsReversed | lib/migrations.jsx:88-99 | reversed, the down run's statements are one per down file in the order the files are listed, each labelled `name/down/filename` |
| Migrations.StepQueries | lib/migrations.jsx:88-99 | one statement per file in run order, labelled `name/direction/filename`, with the file's contents as SQL |
| Migrations.ApplyMigration | lib/migrations.jsx:82-113 | the transaction's trace comes first, and a failed transaction ends there with its error and the table unchanged. After commit, exactly one state-table write follows: `update(name, direction is up)` when the pre-batch rows know the name, otherwise `insert` of a row with applied=true, the clock value and its checksum. Its calls follow the transaction's, the outcome is Pass iff that write succeeds, and the model is the one the write leaves. On Pass a known name's rows all get applied := (direction is up), and an unknown migration gets the new row; any failure leaves the table unchanged |
| Migrations.ApplyAll | lib/migrations.jsx:75-79 | no migration means no call. The first migration's calls come first, and if it fails nothing else runs |
| Migrations.ApplyAllSplit | lib/migrations.jsx:75-79 | applying b1+b2 is applying b1 and then, only if it all passed, applying b2 from where b1 left off. Committed migrations stay committed when a later one fails |
| Migrations.ApplyBatch | lib/migrations.jsx:65-80 | an empty batch fails with EmptyBatchError, with no call and nothing changed. Otherwise the driver's connect is the first call when disconnected, and success leaves the model connected |
| Migrations.UpThenUpToDate | lib/migrations.jsx:38-80 | once the update batch has gone up without error on the table it was selected from, a fresh update batch is empty |

## Left out

- Command-line interface, coloured output, configuration loading, `init`
  scaffolding and the file writes of the `create`/`step` wrappers: these are
  user interface and file I/O.
- Directory walking and file reading in `discover`/`read`/`readFile`: the up
  and down file lists are inputs. The real SHA-1 is a `hash` parameter.
- `util.checkIntegrity` (called at lib/finder.jsx:40) and `getMigration`
  (imported at lib/actions.jsx:7): lib/util.jsx exports only `twoDigits` and
  `snakeDate`.
  - `Finder.CheckIntegrity` takes the pairing rule (equal counts, pairwise
    equal names) from the checks in test/migrations.js:26-44;
  - `getMigration` is a lookup parameter of `Actions.Step`.
- Error classes: lib/errors.jsx defines no `EmptyBatchError`, `QueryError` or
  `MissingDependency`. It defines `IntegrityError` but does not export it: its
  default export holds only `MissingConfiguration`,
  `MissingMigrationDirectory`, `UndefinedConfiguration` and `TransactionError`. As written, the throws at lib/migrations.jsx:32,
  lib/migrations.jsx:71 and lib/db/drivers/driver.jsx:61 would raise a
  `TypeError` from calling an undefined constructor. The model raises the
  named kinds `IntegrityError`, `EmptyBatchError` and `QueryError` instead, as
  the names in the code intend.
- Connection handling: `getConnection`, `getModule`, the pg client's connect
  and end, and the sqlite3 and mysql `connect`. The driver's `connected` state
  is a boolean in `Persistence.Model`, and the driver's connect and disconnect
  answers are parameters.
  - No registered driver defines `connected`: lib/db/drivers/driver.jsx and
    pg.jsx define none of `connected`, `connect` and `disconnect`, and
    sqlite3.jsx defines only `connect`.
  - As written, `this.driver.connected()` at lib/db/model.jsx:29 and :37 would
    raise a `TypeError` on every model operation, since each begins with
    `connect()`. The boolean `connected` stands in for the state the code
    evidently means to track.
- The mysql driver: it is not in the registry. Its boolean encoding is still
  modelled in `Types`, because `types.jsx` dispatches on the driver name.
- Event emission and the promise machinery: everything is sequential.
- The legacy pg-promise module `lib/db.jsx`.
- JavaScript `Date` and time zones: a date is a record of integer components,
  and negative years are rendered with a leading `-`.
- Numbers are integers only; floating point is not modelled.
- Looking up `this[driver]` on objects inherits names such as `constructor`
  from `Object.prototype`. The registry and the type dispatch treat only the
  listed names as present.
- `path.join` normalisation: paths are joined with `/` and not normalised.
- The in-place `reverse()` of `migration.down.files`: the model returns a
  reversed copy. The source's mutation would also reverse the caller's list a
  second time on a second down run.
- The orchestrator hands the transaction `{path, func}` objects, while the
  driver reads `query.sql` and `query.params`. Both are modelled as one labelled
  statement (label, SQL, no parameters).
- The backend oracle is a pure function of the statement, and one clock value
  serves a whole batch. The model cannot express a backend that answers the
  same statement differently over time.
- What the migrations' own SQL does to the database: only the state table's
  rows are modelled. They change only through the orchestrator's post-commit
  `update` and `insert`.
- Persistence.CountAll: returns the first result row. Reading its `count`
  property is not modelled, because rows here have no `count` column.
- Persistence.Insert, Persistence.Update, Persistence.FindAllByName,
  Persistence.DropTable, Persistence.FindLastAppliedMigrations: their contracts
  only state connection and success. Statement text, call order and parameters
  are stated on the builders and on `Persistence.Perform`.
- Finder.DirectionChecksum: the rollup for non-empty lists is stated separately
  in `Finder.DirectionChecksumRollup`. It needs a hash that never returns the
  empty string.
- Drivers.ResultOf: a pg reply that is not a result object, on which lib/db/drivers/pg.jsx:58-60 would yield `undefined`, is given as no rows. The contract leaves that case open, because the pg client never answers that way.
- Drivers.Transaction: on every path where the outcome is an error, the
  contract states only the framing (BEGIN first, close last). The error paths
  are stated in `Drivers.TransactionBeginRejected`,
  `Drivers.TransactionCreateRejected`, `Drivers.TransactionRollsBack` and
  `Drivers.TransactionCommits`.

## Findings

| source | as written | input that shows it | evidently intended | confidence | as-written member | corrected member |
|---|---|---|---|---|---|---|
| lib/actions.jsx:57-58 | `filters.current` is asked about the list with the `initial` sentinel already in front, so the recorded index picks the entry one place too early | four migrations, rows for the first two applied: the first migration is marked current | the last applied migration is current, so with the first two applied the second is current | medium, not executed | Actions.StateOffByOneExample | Actions.StateIntendedAgreesWithCurrent |
| lib/migrations.jsx:27-31 | rows are looked up by a property `n` that table rows never carry, and only the latest migration can fail the check | migrations a (checksum "edited") and b, one row for a with checksum "original": the check passes | every recorded migration except the latest must match its recorded checksum | high, not executed | Migrations.VerifyLockMissesOlderEdit | Migrations.TamperCheck |
| lib/db/model.jsx:17-20 | the message interpolates the failed lookup result, which is always `undefined` | driver "mysql" and driver "oracle" both give "Unknown driver undefined" | the message names the driver that was asked for | high, not executed | Persistence.UnknownDriverMessageLosesName | Persistence.UnknownDriverMessageInjective |

`Actions.State` models `state` as written, and `Actions.StateIntended` is the
corrected listing. `Migrations.VerifyLock` models `verifyLock` as written, and
`Migrations.GetUpdateBatch` and `Migrations.GetRollbackBatch` gate on it as the
code does. `Migrations.GetUpdateBatchIntended` and
`Migrations.GetRollbackBatchIntended` gate on the corrected
`Migrations.TamperCheck`. `Persistence.New` rejects an unknown driver with the
message as written, `Persistence.UnknownDriverMessageAsWritten`;
`Persistence.NewIntended` uses the corrected `Persistence.UnknownDriverMessage`.
The rest of the model (`Migrations.ApplyBatch` and the lemmas about it) does
not depend on either choice.

=== FILE: actions.dfy ===
/** lib/actions.jsx: authoring helpers that name new migration directories
    and step files, and the annotated listing behind the `current` command. */
module Actions {
  import opened Wrappers
  import opened Text
  import opened JsDate
  import opened Errors
  import opened Records
  import Util
  import Dates
  import Filters

  /** The three directories `create` reports. */
  datatype Paths = Paths(rootDir: string, up: string, down: string)

  /** `create(date, suffix)`: `<snake date>_<suffix>` and its two direction
      directories. */
  function Create(date: Date, suffix: string): (r: Paths)
    ensures r.up == Join(r.rootDir, "up") && r.down == Join(r.rootDir, "down")
  {
    var rootDir := Dates.Snake(date) + "_" + suffix;
    Paths(rootDir, Join(rootDir, "up"), Join(rootDir, "down"))
  }

  /** The directory name of a new migration starts with its creation time in
      a form that reads back, then `_`, then the suffix unchanged. */
  lemma CreateRootDirRoundTrip(date: Date, suffix: string)
    requires InRange(date) && FourDigitYear(date)
    ensures var root := Create(date, suffix).rootDir;
      && |root| == 16 + |suffix|
      && root[15] == '_'
      && root[16..] == suffix
      && Dates.SnakeLike(root[..15])
      && Dates.ParseSnake(root[..15])
         == Dates.SnakeFields(date.year, date.month0 + 1, date.day, date.hours, date.minutes, date.seconds)
  {
    var snake := Dates.Snake(date);
    Dates.SnakeRoundTrip(date);
    Dates.SnakeShape(date);
    SplitAtUnderscore(snake, suffix);
  }

  lemma SplitAtUnderscore(head: string, tail: string)
    ensures var s := head + "_" + tail;
      |s| == |head| + 1 + |tail| && s[..|head|] == head && s[|head|] == '_' && s[|head| + 1..] == tail
  {
    var s := head + "_" + tail;
    assert s[..|head|] == head;
    assert s[|head| + 1..] == tail;
  }

  /** The file name given to the `index`-th new step of a migration that
      already has `steps` steps. */
  function StepFileName(steps: nat, index: nat, suffix: string): string {
    Util.TwoDigits(steps + index + 1) + "_" + suffix + ".sql"
  }

  /** `step(discovered, migrationName, suffixes)`: all up paths, then all
      down paths, numbered after the migration's existing steps. The fuzzy
      lookup `getMigration`, imported at lib/actions.jsx:7, is not among
      lib/util.jsx's exports; it is a parameter here. Its answer is never
      checked: a failed lookup is noticed only when the first suffix reads
      `target.steps`, so with no suffixes nothing fails. */
  method Step(discovered: seq<Migration>, migrationName: string, suffixes: seq<string>,
              getMigration: (seq<Migration>, string) -> Option<Migration>)
    returns (r: Result<seq<string>, Error>)
    ensures r.Err? <==> getMigration(discovered, migrationName).None? && |suffixes| > 0
    ensures r.Err? ==> r.error == TypeError(StepsOfUndefined)
    ensures r.Ok? ==> |r.value| == 2 * |suffixes|
    ensures r.Ok? && getMigration(discovered, migrationName).Some? ==>
      var t := getMigration(discovered, migrationName).value;
      forall i | 0 <= i < |suffixes| ::
        && r.value[i] == Join(Join(t.name, "up"), StepFileName(t.steps, i, suffixes[i]))
        && r.value[|suffixes| + i] == Join(Join(t.name, "down"), StepFileName(t.steps, i, suffixes[i]))
  {
    var found := getMigration(discovered, migrationName);
    if |suffixes| == 0 {
      return Ok([]);
    }
    if found.None? {
      return Err(TypeError(StepsOfUndefined));
    }
    var target := found.value;
    var ups := DirectionPaths(target, "up", suffixes);
    var downs := DirectionPaths(target, "down", suffixes);
    r := Ok(ups + downs);
  }

  /** The message of reading `steps` off the `undefined` a failed lookup gives. */
  const StepsOfUndefined := "Cannot read property 'steps' of undefined"

  /** The inner `suffixes.forEach` of `step` for one direction. */
  method DirectionPaths(target: Migration, direction: string, suffixes: seq<string>)
    returns (paths: seq<string>)
    ensures |paths| == |suffixes|
    ensures forall i | 0 <= i < |suffixes| ::
      paths[i] == Join(Join(target.name, direction), StepFileName(target.steps, i, suffixes[i]))
  {
    paths := [];
    var index := 0;
    while index < |suffixes|
      invariant 0 <= index <= |suffixes|
      invariant |paths| == index
      invariant forall i | 0 <= i < index ::
        paths[i] == Join(Join(target.name, direction), StepFileName(target.steps, i, suffixes[i]))
    {
      var filename := StepFileName(target.steps, index, suffixes[index]);
      paths := paths + [Join(Join(target.name, direction), filename)];
      index := index + 1;
    }
  }

  /** The `{name, initial}` objects `state` lists. */
  datatype Item = Item(name: string, initial: bool)

  /** One line of the `current` listing. */
  datatype Entry = Entry(name: string, current: bool, initial: bool)

  const InitialName := "initial"

  /** `_isCurrent`: with no current migration every entry counts as current. */
  function IsCurrent(current: Option<Item>, name: string): (b: bool)
    ensures current.None? ==> b
    ensures current.Some? ==> (b <==> current.value.name == name)
  {
    if current.Some? then current.value.name == name else true
  }

  /** The `initial` sentinel followed by the discovered migrations. */
  function Items(discovered: seq<Migration>): (r: seq<Item>)
    ensures |r| == |discovered| + 1
    ensures r[0] == Item(InitialName, true)
    ensures forall i | 0 <= i < |discovered| :: r[i + 1] == Item(discovered[i].name, false)
  {
    [Item(InitialName, true)] + seq(|discovered|, i requires 0 <= i < |discovered| => Item(discovered[i].name, false))
  }

  function Annotate(items: seq<Item>, current: Option<Item>): (r: seq<Entry>)
    ensures |r| == |items|
    ensures forall i | 0 <= i < |items| ::
      r[i] == Entry(items[i].name, IsCurrent(current, items[i].name), items[i].initial)
  {
    seq(|items|, i requires 0 <= i < |items| => Entry(items[i].name, IsCurrent(current, items[i].name), items[i].initial))
  }

  /** `state(discovered, recorded)` as written: `filters.current` is asked
      about the list that already has the sentinel in front, so the position
      of the last applied row selects one entry earlier than intended. */
  function State(discovered: seq<Migration>, recorded: seq<Row>): (r: seq<Entry>)
    ensures |r| == |discovered| + 1
    ensures r[0].name == InitialName && r[0].initial
    ensures forall i | 0 <= i < |discovered| :: r[i + 1].name == discovered[i].name && !r[i + 1].initial
  {
    var items := Items(discovered);
    Annotate(items, Filters.Current(items, recorded))
  }

  predicate NoSentinelName(discovered: seq<Migration>) {
    forall i | 0 <= i < |discovered| :: discovered[i].name != InitialName
  }

  predicate DistinctNames(discovered: seq<Migration>) {
    forall i, j | 0 <= i < j < |discovered| :: discovered[i].name != discovered[j].name
  }

  predicate NothingApplied(recorded: seq<Row>) {
    forall j | 0 <= j < |recorded| :: recorded[j].applied != JsValues.Bool(true)
  }

  predicate LastAppliedAt(recorded: seq<Row>, k: nat) {
    && k < |recorded| && recorded[k].applied == JsValues.Bool(true)
    && forall j | k < j < |recorded| :: recorded[j].applied != JsValues.Bool(true)
  }

  /** When no row is applied, the sentinel is the only current entry. */
  lemma StateNothingApplied(discovered: seq<Migration>, recorded: seq<Row>)
    requires NothingApplied(recorded)
    requires NoSentinelName(discovered)
    ensures var r := State(discovered, recorded);
      r[0].current && forall i | 1 <= i < |r| :: !r[i].current
  {
    var items := Items(discovered);
    Filters.CurrentWhenNothingApplied(items, recorded);
  }

  /** As written: when row k is the last applied one, entry k of the listing
      is marked current -- the sentinel for k = 0, otherwise the migration
      discovered at position k - 1 -- and every entry is marked current when
      k lies past the end of the listing. */
  lemma StateCurrentAsWritten(discovered: seq<Migration>, recorded: seq<Row>, k: nat)
    requires LastAppliedAt(recorded, k)
    requires NoSentinelName(discovered) && DistinctNames(discovered)
    ensures var r := State(discovered, recorded);
      && (k <= |discovered| ==> forall i | 0 <= i < |r| :: r[i].current <==> i == k)
      && (k > |discovered| ==> forall i | 0 <= i < |r| :: r[i].current)
  {
    var items := Items(discovered);
    Filters.CurrentIsLastApplied(items, recorded, k);
    if k <= |discovered| {
      ItemsDistinct(discovered);
      AnnotateMarksOne(items, k);
    }
  }

  /** The case the test suite expects (four migrations, the first two
      applied): the code marks the first migration current, not the second. */
  lemma StateOffByOneExample()
    ensures var m := (n: string) => Migration(n, Steps([], ""), Steps([], ""), 0, "");
      var discovered := [m("20150210_221003_foo"), m("20150210_221203_bar"),
                         m("20150210_221003_buz"), m("20150210_221203_fizzbuzz")];
      var recorded := [Row("20150210_221003_foo", JsValues.Bool(true), None, "", None),
                       Row("20150210_221203_bar", JsValues.Bool(true), None, "", None)];
      var r := State(discovered, recorded);
      r[1].current && !r[2].current
  {
    var m := (n: string) => Migration(n, Steps([], ""), Steps([], ""), 0, "");
    var discovered := [m("20150210_221003_foo"), m("20150210_221203_bar"),
                       m("20150210_221003_buz"), m("20150210_221203_fizzbuzz")];
    var recorded := [Row("20150210_221003_foo", JsValues.Bool(true), None, "", None),
                     Row("20150210_221203_bar", JsValues.Bool(true), None, "", None)];
    assert LastAppliedAt(recorded, 1);
    StateCurrentAsWritten(discovered, recorded, 1);
  }

  /** `state` as evidently intended: the sentinel stays current while nothing
      is applied; otherwise the migration `filters.current` picks is. */
  function StateIntended(discovered: seq<Migration>, recorded: seq<Row>): (r: seq<Entry>)
    ensures |r| == |discovered| + 1
    ensures r[0].name == InitialName && r[0].initial
    ensures forall i | 0 <= i < |discovered| :: r[i + 1].name == discovered[i].name && !r[i + 1].initial
  {
    var items := Items(discovered);
    var last := Filters.LastAppliedIndex(recorded);
    Annotate(items, Filters.At(items, last + 1))
  }

  /** The corrected listing marks exactly the migration `filters.current`
      selects from the undecorated list, or only the sentinel when nothing is
      applied. */
  lemma StateIntendedAgreesWithCurrent(discovered: seq<Migration>, recorded: seq<Row>)
    requires NoSentinelName(discovered) && DistinctNames(discovered)
    ensures var r := StateIntended(discovered, recorded);
      && (NothingApplied(recorded) ==> r[0].current && forall i | 1 <= i < |r| :: !r[i].current)
      && (!NothingApplied(recorded) && Filters.Current(discovered, recorded).Some? ==>
            !r[0].current
            && forall i | 1 <= i < |r| :: r[i].current <==> discovered[i - 1] == Filters.Current(discovered, recorded).value)
  {
    if NothingApplied(recorded) {
      StateIntendedNothingApplied(discovered, recorded);
    } else if Filters.Current(discovered, recorded).Some? {
      StateIntendedMarksCurrent(discovered, recorded);
      MarkedIndexIsMarkedMigration(discovered, StateIntended(discovered, recorded), Filters.LastAppliedIndex(recorded));
    }
  }

  /** With distinct names, marking exactly position `last` marks exactly the
      migrations equal to the one at `last`. */
  lemma MarkedIndexIsMarkedMigration(discovered: seq<Migration>, r: seq<Entry>, last: int)
    requires DistinctNames(discovered) && 0 <= last < |discovered| && |r| == |discovered| + 1
    requires forall i | 1 <= i < |r| :: r[i].current <==> i - 1 == last
    ensures forall i | 1 <= i < |r| :: r[i].current <==> discovered[i - 1] == discovered[last]
  {
    forall i | 1 <= i < |r|
      ensures r[i].current <==> discovered[i - 1] == discovered[last]
    {
      if i - 1 != last {
        assert discovered[i - 1].name != discovered[last].name;
      }
    }
  }

  lemma StateIntendedNothingApplied(discovered: seq<Migration>, recorded: seq<Row>)
    requires NoSentinelName(discovered) && DistinctNames(discovered) && NothingApplied(recorded)
    ensures var r := StateIntended(discovered, recorded);
      r[0].current && forall i | 1 <= i < |r| :: !r[i].current
  {
    var items := Items(discovered);
    assert Filters.LastAppliedIndex(recorded) == -1;
    assert StateIntended(discovered, recorded) == Annotate(items, Some(items[0]));
    ItemsDistinct(discovered);
    AnnotateMarksOne(items, 0);
  }

  lemma StateIntendedMarksCurrent(discovered: seq<Migration>, recorded: seq<Row>)
    requires NoSentinelName(discovered) && DistinctNames(discovered)
    requires !NothingApplied(recorded) && Filters.Current(discovered, recorded).Some?
    ensures var r := StateIntended(discovered, recorded);
      && !r[0].current
      && forall i | 1 <= i < |r| :: r[i].current <==> i - 1 == Filters.LastAppliedIndex(recorded)
    ensures Filters.Current(discovered, recorded) == Some(discovered[Filters.LastAppliedIndex(recorded)])
  {
    var items := Items(discovered);
    var last := Filters.LastAppliedIndex(recorded);
    assert Filters.At(items, last + 1) == Some(items[last + 1]);
    ItemsDistinct(discovered);
    AnnotateMarksOne(items, last + 1);
  }

  /** The sentinel's name differs from every migration's, so the listing's
      names are pairwise distinct when the migrations' are. */
  lemma ItemsDistinct(discovered: seq<Migration>)
    requires NoSentinelName(discovered) && DistinctNames(discovered)
    ensures var items := Items(discovered);
      forall i, j | 0 <= i < j < |items| :: items[i].name != items[j].name
  {
  }

  /** With pairwise distinct names, annotating against entry k marks that
      entry and no other. */
  lemma AnnotateMarksOne(items: seq<Item>, k: nat)
    requires k < |items|
    requires forall i, j | 0 <= i < j < |items| :: items[i].name != items[j].name
    ensures forall i | 0 <= i < |items| :: Annotate(items, Some(items[k]))[i].current <==> i == k
  {
  }
}

=== FILE: date.dfy ===
/** lib/date.jsx: the padded component list of a date and the `snake` form
    used to name migration directories. */
module Dates {
  import opened Text
  import opened JsDate
  import Util

  /** `[year, month, day, hours, minutes, seconds, ms]`: the five middle
      components go through `twoDigits`; year and milliseconds are printed
      as they are, without padding. The source splices the five padded
      components in between the year and the milliseconds; the result is
      this list. */
  function PaddedDateList(d: Date): (r: seq<string>)
    ensures |r| == 7
    ensures r[0] == IntToString(d.year) && r[6] == Decimal(d.ms)
    ensures forall i | 1 <= i <= 5 :: |r[i]| >= 2 && AllDigits(r[i])
  {
    [IntToString(d.year),
     Util.TwoDigits(d.month0 + 1), Util.TwoDigits(d.day), Util.TwoDigits(d.hours),
     Util.TwoDigits(d.minutes), Util.TwoDigits(d.seconds),
     Decimal(d.ms)]
  }

  /** `snake(date)`: the first six components, with `_` after the day. It
      agrees with `util.snakeDate`, written independently, on every date. */
  function Snake(d: Date): (r: string)
    ensures r == Util.SnakeDate(d)
  {
    var l := PaddedDateList(d);
    PaddedDateListParts(d);
    l[0] + l[1] + l[2] + "_" + l[3] + l[4] + l[5]
  }

  lemma PaddedDateListParts(d: Date)
    ensures var l := PaddedDateList(d);
      && l[0] == IntToString(d.year)
      && l[1] == Util.TwoDigits(d.month0 + 1) && l[2] == Util.TwoDigits(d.day)
      && l[3] == Util.TwoDigits(d.hours) && l[4] == Util.TwoDigits(d.minutes)
      && l[5] == Util.TwoDigits(d.seconds)
  {
  }

  /** Every middle component reads back as the number it came from. */
  lemma PaddedDateListRoundTrip(d: Date)
    ensures var l := PaddedDateList(d);
      && ParseDecimal(l[1]) == d.month0 + 1
      && ParseDecimal(l[2]) == d.day
      && ParseDecimal(l[3]) == d.hours
      && ParseDecimal(l[4]) == d.minutes
      && ParseDecimal(l[5]) == d.seconds
      && (d.year >= 0 ==> ParseDecimal(l[0]) == d.year)
      && ParseDecimal(l[6]) == d.ms
  {
    var l := PaddedDateList(d);
    assert l[1] == Util.TwoDigits(d.month0 + 1) && l[2] == Util.TwoDigits(d.day);
    assert l[3] == Util.TwoDigits(d.hours) && l[4] == Util.TwoDigits(d.minutes);
    assert l[5] == Util.TwoDigits(d.seconds);
    Util.TwoDigitsRoundTrip(d.month0 + 1);
    Util.TwoDigitsRoundTrip(d.day);
    Util.TwoDigitsRoundTrip(d.hours);
    Util.TwoDigitsRoundTrip(d.minutes);
    Util.TwoDigitsRoundTrip(d.seconds);
    DecimalRoundTrip(d.ms);
    if d.year >= 0 {
      DecimalRoundTrip(d.year);
    }
  }

  /** With a four-digit year and real ranges, the year has four characters
      and each middle component exactly two. */
  lemma PaddedDateListShape(d: Date)
    requires InRange(d) && FourDigitYear(d)
    ensures var l := PaddedDateList(d);
      |l[0]| == 4 && |l[1]| == 2 && |l[2]| == 2 && |l[3]| == 2 && |l[4]| == 2 && |l[5]| == 2
  {
    PaddedDateListParts(d);
    FourDigitDecimal(d.year);
    Util.TwoDigitsLength(d.month0 + 1);
    Util.TwoDigitsLength(d.day);
    Util.TwoDigitsLength(d.hours);
    Util.TwoDigitsLength(d.minutes);
    Util.TwoDigitsLength(d.seconds);
  }

  lemma FourDigitDecimal(y: int)
    requires 1000 <= y <= 9999
    ensures |IntToString(y)| == 4
  {
    assert Pow10(3) == 1000 && Pow10(4) == 10000;
    DecimalLength(y, 4);
  }

  /** The two snake-date implementations of the source agree on every date. */
  lemma SnakeDateAgrees(d: Date)
    ensures Util.SnakeDate(d) == Snake(d)
  {
  }

  /** With a four-digit year and real component ranges, a snake date is
      fifteen characters: eight digits, `_`, six digits. */
  lemma SnakeShape(d: Date)
    requires InRange(d) && FourDigitYear(d)
    ensures |Snake(d)| == 15
    ensures Snake(d)[8] == '_'
    ensures AllDigits(Snake(d)[..8]) && AllDigits(Snake(d)[9..])
  {
    PaddedDateListShape(d);
    var l := PaddedDateList(d);
    SnakeOfDigitParts(l[0], l[1], l[2], l[3], l[4], l[5]);
  }

  /** Eight digits, `_`, six digits, whatever the parts' contents. */
  lemma SnakeOfDigitParts(y: string, mo: string, dd: string, h: string, mi: string, se: string)
    requires |y| == 4 && |mo| == 2 && |dd| == 2 && |h| == 2 && |mi| == 2 && |se| == 2
    requires AllDigits(y) && AllDigits(mo) && AllDigits(dd) && AllDigits(h) && AllDigits(mi) && AllDigits(se)
    ensures var s := y + mo + dd + "_" + h + mi + se;
      && |s| == 15 && s[8] == '_' && AllDigits(s[..8]) && AllDigits(s[9..])
      && s[..8] == y + mo + dd && s[9..] == h + mi + se
  {
    var s := y + mo + dd + "_" + h + mi + se;
    assert s[..8] == y + mo + dd;
    assert s[9..] == h + mi + se;
  }

  /** The date half and the time half of a snake date. */
  lemma SnakeHalves(d: Date)
    requires InRange(d) && FourDigitYear(d)
    ensures var l := PaddedDateList(d);
      Snake(d)[..8] == l[0] + l[1] + l[2] && Snake(d)[9..] == l[3] + l[4] + l[5]
  {
    PaddedDateListShape(d);
    var l := PaddedDateList(d);
    SnakeOfDigitParts(l[0], l[1], l[2], l[3], l[4], l[5]);
  }

  datatype SnakeFields = SnakeFields(year: nat, month: nat, day: nat, hours: nat, minutes: nat, seconds: nat)

  predicate SnakeLike(s: string) {
    |s| == 15 && s[8] == '_' && AllDigits(s[..8]) && AllDigits(s[9..])
  }

  /** Reads a snake date back into its numeric fields. */
  function ParseSnake(s: string): SnakeFields
    requires SnakeLike(s)
  {
    assert forall i | 0 <= i < 8 :: s[..8][i] == s[i];
    assert forall i | 9 <= i < 15 :: s[9..][i - 9] == s[i];
    SnakeFields(
      ParseDecimal(s[0..4]), ParseDecimal(s[4..6]), ParseDecimal(s[6..8]),
      ParseDecimal(s[9..11]), ParseDecimal(s[11..13]), ParseDecimal(s[13..15]))
  }

  /** Snake dates lose only the milliseconds: the text determines the year,
      1-based month, day, hours, minutes and seconds. */
  lemma SnakeRoundTrip(d: Date)
    requires InRange(d) && FourDigitYear(d)
    ensures SnakeLike(Snake(d))
    ensures ParseSnake(Snake(d))
         == SnakeFields(d.year, d.month0 + 1, d.day, d.hours, d.minutes, d.seconds)
  {
    SnakeShape(d);
    PaddedDateListRoundTrip(d);
    var l := PaddedDateList(d);
    SliceSnakeParts(l[0], l[1], l[2], l[3], l[4], l[5]);
  }

  lemma SliceSnakeParts(y: string, mo: string, dd: string, h: string, mi: string, se: string)
    requires |y| == 4 && |mo| == 2 && |dd| == 2 && |h| == 2 && |mi| == 2 && |se| == 2
    ensures var s := y + mo + dd + "_" + h + mi + se;
      s[0..4] == y && s[4..6] == mo && s[6..8] == dd
      && s[9..11] == h && s[11..13] == mi && s[13..15] == se
  {
  }

  /** Two in-range dates with the same snake agree on everything but
      milliseconds, so directory names order and identify migrations. */
  lemma SnakeInjective(d1: Date, d2: Date)
    requires InRange(d1) && FourDigitYear(d1)
    requires InRange(d2) && FourDigitYear(d2)
    requires Snake(d1) == Snake(d2)
    ensures d1.year == d2.year && d1.month0 == d2.month0 && d1.day == d2.day
    ensures d1.hours == d2.hours && d1.minutes == d2.minutes && d1.seconds == d2.seconds
  {
    SnakeRoundTrip(d1);
    SnakeRoundTrip(d2);
  }
}

=== FILE: drivers.dfy ===
/** lib/db/drivers/driver.jsx with its registry (lib/db/drivers/index.jsx):
    the statement protocol shared by every backend. The backend itself is an
    oracle `exec` that answers each statement with a reply or an error code;
    a run records the statements issued and the closing of the connection. */
module Drivers {
  import opened Wrappers
  import opened Errors
  import opened JsValues
  import opened Records
  import Text
  import Pg

  datatype Kind = PgDriver | Sqlite3Driver

  /** `getName()`: each variant's `NAME`. */
  function KindName(kind: Kind): string {
    match kind
    case PgDriver => Pg.Name
    case Sqlite3Driver => "sqlite3"
  }

  /** The registry `{ pg, sqlite3 }`: a name is registered exactly when it is
      some variant's `getName()`, and it resolves to that variant. */
  function Registry(name: string): (r: Option<Kind>)
    ensures r.Some? <==> exists k: Kind :: KindName(k) == name
    ensures r.Some? ==> KindName(r.value) == name
  {
    if name == "pg" then
      assert KindName(PgDriver) == name;
      Some(PgDriver)
    else if name == "sqlite3" then
      assert KindName(Sqlite3Driver) == name;
      Some(Sqlite3Driver)
    else
      assert KindName(PgDriver) != name && KindName(Sqlite3Driver) != name;
      None
  }

  /** Looking a variant up by its own name finds that variant. */
  lemma RegistryRoundTrip(k: Kind)
    ensures Registry(KindName(k)) == Some(k)
  {
  }

  /** A driver instance: its variant and the configured table name. */
  datatype Driver = Driver(kind: Kind, tableName: string)

  const Placeholder := "$$tableName$$"

  /** The sqlite3 variant's create statement around its placeholder. */
  const SqliteCreatePrefix := "CREATE  TABLE  " + "IF NOT EXISTS \""
  const SqliteCreateSuffix :=
    "\" (\n"
    + "      \"id\" INTEGER PRIMARY KEY AUTOINCREMENT,\n"
    + "      \"name\" VARCHAR NOT NULL,\n"
    + "      \"applied\" BOOL NOT NULL,\n"
    + "      \"migration_time\" DATETIME NOT NULL,\n"
    + "      \"checksum\" TEXT NOT NULL\n"
    + "    );"

  function CreatePrefix(kind: Kind): string {
    match kind
    case PgDriver => Pg.CreatePrefix
    case Sqlite3Driver => SqliteCreatePrefix
  }

  function CreateSuffix(kind: Kind): string {
    match kind
    case PgDriver => Pg.CreateSuffix
    case Sqlite3Driver => SqliteCreateSuffix
  }

  /** `CREATE_STATEMENT` of the variant. */
  function CreateTemplate(kind: Kind): string {
    CreatePrefix(kind) + Placeholder + CreateSuffix(kind)
  }

  /** `sql(sql)`: identity, except that pg renumbers placeholders. */
  function Sql(d: Driver, sql: string): (r: string)
    ensures d.kind == Sqlite3Driver ==> r == sql
    ensures d.kind == PgDriver ==> '?' !in r
  {
    match d.kind
    case PgDriver => Pg.Sql(sql)
    case Sqlite3Driver => sql
  }

  /** `getTableName()`. */
  function TableName(d: Driver): string {
    match d.kind
    case PgDriver => Pg.TableName(d.tableName)
    case Sqlite3Driver => d.tableName
  }

  /** `getCreateStatement()`: `CREATE_STATEMENT.replace('$$tableName$$', ...)`,
      so only the first placeholder is replaced and `$` patterns in the table
      name are interpreted by `replace`. For a table name without `$`, the
      statement is the template with the (pg: schema-qualified) table name in
      place of the placeholder. */
  function CreateStatement(d: Driver): (r: string)
    ensures '$' !in d.tableName ==> r == CreatePrefix(d.kind) + TableName(d) + CreateSuffix(d.kind)
  {
    var r := Text.ReplaceFirst(CreateTemplate(d.kind), Placeholder, TableName(d));
    if '$' in d.tableName then r
    else
      PrefixPlain(d.kind);
      assert '$' !in TableName(d);
      SpliceAfterPlainPrefix(CreatePrefix(d.kind), Placeholder, CreateSuffix(d.kind), TableName(d));
      r
  }

  lemma FirstOccurrenceAfterPlainPrefix(pre: string, pat: string, post: string)
    requires |pat| > 0 && pat[0] == '$' && '$' !in pre
    ensures Text.OccursAt(pre + pat + post, pat, |pre|)
    ensures forall j | 0 <= j < |pre| :: !Text.OccursAt(pre + pat + post, pat, j)
  {
    var s := pre + pat + post;
    assert s[|pre|..|pre| + |pat|] == pat;
    forall j | 0 <= j < |pre|
      ensures !Text.OccursAt(s, pat, j)
    {
      if j + |pat| <= |s| {
        assert s[j..j + |pat|][0] == pre[j] != pat[0];
      }
    }
  }

  /** Replacing a `$`-led pattern that follows a `$`-free prefix with a
      `$`-free text splices the text in place of the pattern. */
  lemma SpliceAfterPlainPrefix(pre: string, pat: string, post: string, repl: string)
    requires |pat| > 0 && pat[0] == '$' && '$' !in pre && '$' !in repl
    ensures Text.ReplaceFirst(pre + pat + post, pat, repl) == pre + repl + post
  {
    var s := pre + pat + post;
    FirstOccurrenceAfterPlainPrefix(pre, pat, post);
    Text.ReplaceFirstPlain(s, pat, repl, |pre|);
    assert s[..|pre|] == pre;
    assert s[|pre| + |pat|..] == post;
  }

  lemma PrefixPlain(kind: Kind)
    ensures '$' !in CreatePrefix(kind)
  {
    match kind
    case PgDriver =>
      assert '$' !in "\n    CREATE SCHEMA " && '$' !in "IF NOT EXISTS " && '$' !in Pg.SchemaName;
      assert '$' !in ";\n    CREATE TABLE ";
    case Sqlite3Driver =>
      assert '$' !in "CREATE  TABLE  " && '$' !in "IF NOT EXISTS \"";
  }

  /** A statement as handed to the client: text and bound parameters. */
  datatype Stmt = Stmt(sql: string, params: seq<Value>)

  /** What the backend client answers: the rows, inside a `pg` result
      object or (sqlite3) as a bare row array. */
  datatype Reply = PgReply(res: Pg.PgResult) | RowArray(rows: seq<Row>)

  /** What `query` resolves to after `result()`. */
  datatype QueryResult = Rows(rows: seq<Row>) | Raw(reply: Reply)

  /** `result(res)`: pg unwraps `rows`, the base driver passes the reply on. */
  function ResultOf(d: Driver, reply: Reply): (r: QueryResult)
    ensures d.kind == Sqlite3Driver ==> r == Raw(reply)
    ensures d.kind == PgDriver && reply.PgReply? ==> r == Rows(reply.res.rows)
  {
    match d.kind
    case PgDriver => if reply.PgReply? then Rows(reply.res.rows) else Rows([])
    case Sqlite3Driver => Raw(reply)
  }

  /** The rows a query result carries, whatever its shape. */
  function RowsOf(r: QueryResult): seq<Row> {
    match r
    case Rows(rows) => rows
    case Raw(PgReply(res)) => res.rows
    case Raw(RowArray(rows)) => rows
  }

  /** Each variant's client answers in its own shape. */
  predicate NativeShape(d: Driver, reply: Reply) {
    match d.kind
    case PgDriver => reply.PgReply?
    case Sqlite3Driver => reply.RowArray?
  }

  /** Whatever the backend, a native reply comes out of `result()` as the
      backend's row list. */
  lemma ResultNormalises(d: Driver, reply: Reply)
    requires NativeShape(d, reply)
    ensures RowsOf(ResultOf(d, reply)) == (if reply.PgReply? then reply.res.rows else reply.rows)
  {
  }

  type Exec = Stmt -> Result<Reply, string>

  datatype Event = Issue(stmt: Stmt) | Close

  /** A run of `query` or `transaction`: what was issued, then the outcome. */
  datatype Run<T> = Run(trace: seq<Event>, outcome: Result<T, Error>)

  /** A labelled statement of a transaction (a step file's path and SQL). */
  datatype Query = Query(path: string, sql: string, params: seq<Value>)

  function Translate(d: Driver, q: Query): Stmt {
    Stmt(Sql(d, q.sql), q.params)
  }

  /** The statements the queries become, in order. */
  function Issued(d: Driver, qs: seq<Query>): (r: seq<Event>)
    ensures |r| == |qs|
    ensures forall i | 0 <= i < |qs| :: r[i] == Issue(Translate(d, qs[i]))
  {
    seq(|qs|, i requires 0 <= i < |qs| => Issue(Translate(d, qs[i])))
  }

  /** Query k is the first one the backend rejects. */
  predicate FirstFailure(d: Driver, qs: seq<Query>, exec: Exec, k: nat) {
    && k < |qs|
    && exec(Translate(d, qs[k])).Err?
    && forall j | 0 <= j < k :: exec(Translate(d, qs[j])).Ok?
  }

  predicate AllSucceed(d: Driver, qs: seq<Query>, exec: Exec) {
    forall j | 0 <= j < |qs| :: exec(Translate(d, qs[j])).Ok?
  }

  datatype Failure = Failure(code: string, query: Query)

  datatype LoopRun = LoopRun(issued: seq<Event>, failure: Option<Failure>)

  /** The `for ... of queries` loop: stops at the first rejected query. */
  function RunQueries(d: Driver, qs: seq<Query>, exec: Exec): (r: LoopRun)
    ensures r.failure.None? <==> AllSucceed(d, qs, exec)
    ensures r.failure.None? ==> r.issued == Issued(d, qs)
  {
    if |qs| == 0 then LoopRun([], None)
    else
      var st := Translate(d, qs[0]);
      match exec(st)
      case Err(code) => LoopRun([Issue(st)], Some(Failure(code, qs[0])))
      case Ok(_) =>
        var rest := RunQueries(d, qs[1..], exec);
        assert AllSucceed(d, qs, exec) <==> AllSucceed(d, qs[1..], exec) by {
          if AllSucceed(d, qs[1..], exec) {
            forall j | 0 <= j < |qs| ensures exec(Translate(d, qs[j])).Ok? {
              if j > 0 { assert qs[j] == qs[1..][j - 1]; }
            }
          }
        }
        assert Issued(d, qs) == [Issue(st)] + Issued(d, qs[1..]);
        LoopRun([Issue(st)] + rest.issued, rest.failure)
  }

  /** Up to the first rejected query the loop issues every query in order,
      including the rejected one, and then nothing more. */
  lemma {:induction false} RunQueriesStopsAtFirstFailure(d: Driver, qs: seq<Query>, exec: Exec, k: nat)
    requires FirstFailure(d, qs, exec, k)
    ensures RunQueries(d, qs, exec).issued == Issued(d, qs[..k + 1])
    ensures RunQueries(d, qs, exec).failure == Some(Failure(exec(Translate(d, qs[k])).error, qs[k]))
  {
    if k > 0 {
      assert FirstFailure(d, qs[1..], exec, k - 1) by {
        forall j | 0 <= j < k - 1 ensures exec(Translate(d, qs[1..][j])).Ok? {
          assert qs[1..][j] == qs[j + 1];
        }
      }
      RunQueriesStopsAtFirstFailure(d, qs[1..], exec, k - 1);
      assert qs[1..][..k] == qs[1..k + 1];
      assert Issued(d, qs[..k + 1]) == [Issue(Translate(d, qs[0]))] + Issued(d, qs[1..k + 1]);
    }
  }

  const Begin := Stmt("BEGIN", [])
  const Rollback := Stmt("ROLLBACK", [])
  const Commit := Stmt("COMMIT", [])

  /** `transaction(queries)`: BEGIN, the create statement, the queries in
      order; ROLLBACK and a `QueryError` naming the first rejected query, or
      COMMIT. The connection is closed at the end of every path; a rejected
      BEGIN, create, ROLLBACK or COMMIT surfaces as the backend's own error. */
  function Transaction(d: Driver, qs: seq<Query>, exec: Exec): (r: Run<Reply>)
    ensures |r.trace| >= 2 && r.trace[0] == Issue(Begin) && r.trace[|r.trace| - 1] == Close
    ensures r.outcome.Ok? ==>
      && AllSucceed(d, qs, exec)
      && r.trace == [Issue(Begin), Issue(Stmt(CreateStatement(d), []))] + Issued(d, qs) + [Issue(Commit), Close]
  {
    var create := Stmt(CreateStatement(d), []);
    if exec(Begin).Err? then Run([Issue(Begin), Close], Err(BackendError(exec(Begin).error)))
    else if exec(create).Err? then Run([Issue(Begin), Issue(create), Close], Err(BackendError(exec(create).error)))
    else
      var loop := RunQueries(d, qs, exec);
      var issued := [Issue(Begin), Issue(create)] + loop.issued;
      if loop.failure.Some? then
        var f := loop.failure.value;
        var rb := exec(Rollback);
        Run(issued + [Issue(Rollback), Close],
            if rb.Err? then Err(BackendError(rb.error)) else Err(QueryError(f.code, f.query.path, f.query.sql)))
      else
        var c := exec(Commit);
        Run(issued + [Issue(Commit), Close], if c.Err? then Err(BackendError(c.error)) else Ok(c.value))
  }

  lemma {:induction false} LoopIssuesOnly(d: Driver, qs: seq<Query>, exec: Exec)
    ensures Close !in RunQueries(d, qs, exec).issued
  {
    if |qs| > 0 && exec(Translate(d, qs[0])).Ok? {
      LoopIssuesOnly(d, qs[1..], exec);
    }
  }

  /** A trace that ends by issuing one more statement and closing has no
      earlier close when the issued prefix has none. */
  lemma ClosesLast(issued: seq<Event>, st: Stmt)
    requires Close !in issued
    ensures var t := issued + [Issue(st), Close]; Close !in t[..|t| - 1]
  {
    assert (issued + [Issue(st), Close])[..|issued| + 1] == issued + [Issue(st)];
  }

  /** The connection is closed exactly once, as the last event. */
  lemma TransactionClosesOnce(d: Driver, qs: seq<Query>, exec: Exec)
    ensures Close !in Transaction(d, qs, exec).trace[..|Transaction(d, qs, exec).trace| - 1]
  {
    var create := Stmt(CreateStatement(d), []);
    if exec(Begin).Err? {
      ClosesLast([], Begin);
    } else if exec(create).Err? {
      ClosesLast([Issue(Begin)], create);
    } else {
      var loop := RunQueries(d, qs, exec);
      LoopIssuesOnly(d, qs, exec);
      ClosesLast([Issue(Begin), Issue(create)] + loop.issued, if loop.failure.Some? then Rollback else Commit);
    }
  }

  /** The backend accepts the statements that open a transaction: BEGIN and
      the create statement. */
  predicate Opens(d: Driver, exec: Exec) {
    exec(Begin).Ok? && exec(Stmt(CreateStatement(d), [])).Ok?
  }

  /** A rejected BEGIN: nothing else is issued before the close, and the
      backend's error surfaces. */
  lemma TransactionBeginRejected(d: Driver, qs: seq<Query>, exec: Exec)
    requires exec(Begin).Err?
    ensures Transaction(d, qs, exec) == Run([Issue(Begin), Close], Err(BackendError(exec(Begin).error)))
  {
  }

  /** A rejected create statement: no query runs, and the backend's error
      surfaces. */
  lemma TransactionCreateRejected(d: Driver, qs: seq<Query>, exec: Exec)
    requires exec(Begin).Ok? && exec(Stmt(CreateStatement(d), [])).Err?
    ensures Transaction(d, qs, exec)
         == Run([Issue(Begin), Issue(Stmt(CreateStatement(d), [])), Close],
                Err(BackendError(exec(Stmt(CreateStatement(d), [])).error)))
  {
  }

  /** Every query accepted: BEGIN, create, all queries in order, COMMIT last
      before the connection closes. The outcome is COMMIT's reply, or the
      backend's error when COMMIT itself is rejected. */
  lemma TransactionCommits(d: Driver, qs: seq<Query>, exec: Exec)
    requires Opens(d, exec) && AllSucceed(d, qs, exec)
    ensures Transaction(d, qs, exec).trace
         == [Issue(Begin), Issue(Stmt(CreateStatement(d), []))] + Issued(d, qs) + [Issue(Commit), Close]
    ensures Transaction(d, qs, exec).outcome
         == if exec(Commit).Ok? then Ok(exec(Commit).value) else Err(BackendError(exec(Commit).error))
  {
  }

  /** Query k rejected first: nothing after it runs, ROLLBACK follows it
      in place of COMMIT, and the error names query k with the backend's
      code -- unless ROLLBACK itself is rejected, whose error then surfaces. */
  lemma TransactionRollsBack(d: Driver, qs: seq<Query>, exec: Exec, k: nat)
    requires Opens(d, exec) && FirstFailure(d, qs, exec, k)
    ensures Transaction(d, qs, exec).trace
         == [Issue(Begin), Issue(Stmt(CreateStatement(d), []))] + Issued(d, qs[..k + 1]) + [Issue(Rollback), Close]
    ensures Transaction(d, qs, exec).outcome
         == if exec(Rollback).Err? then Err(BackendError(exec(Rollback).error))
            else Err(QueryError(exec(Translate(d, qs[k])).error, qs[k].path, qs[k].sql))
  {
    RunQueriesStopsAtFirstFailure(d, qs, exec, k);
  }

  /** `query(sql, params)`: the create statement, then the translated caller
      statement; its reply goes through `result()`. The connection is closed
      on both paths; errors surface unwrapped. */
  function RunQuery(d: Driver, sql: string, params: seq<Value>, exec: Exec): (r: Run<QueryResult>)
    ensures |r.trace| >= 2 && r.trace[|r.trace| - 1] == Close && Close !in r.trace[..|r.trace| - 1]
    ensures r.trace[0] == Issue(Stmt(CreateStatement(d), []))
    ensures r.outcome.Ok? ==>
      && exec(Stmt(Sql(d, sql), params)).Ok?
      && r.trace == [Issue(Stmt(CreateStatement(d), [])), Issue(Stmt(Sql(d, sql), params)), Close]
      && r.outcome.value == ResultOf(d, exec(Stmt(Sql(d, sql), params)).value)
  {
    var create := Stmt(CreateStatement(d), []);
    match exec(create)
    case Err(code) => Run([Issue(create), Close], Err(BackendError(code)))
    case Ok(_) =>
      var st := Stmt(Sql(d, sql), params);
      match exec(st)
      case Err(code) => Run([Issue(create), Issue(st), Close], Err(BackendError(code)))
      case Ok(reply) => Run([Issue(create), Issue(st), Close], Ok(ResultOf(d, reply)))
  }
}

=== FILE: errors.dfy ===
/** The exceptions the core raises, as one closed datatype. */
module Errors {

  datatype Error =
      /** Up/down pairing broken, or a recorded checksum no longer matches. */
    | IntegrityError(message: string)
      /** `applyBatch` was handed nothing to do. */
    | EmptyBatchError
      /** A statement inside a transaction failed; the transaction was rolled back. */
    | QueryError(code: string, path: string, sql: string)
      /** A backend error that surfaced without being wrapped. */
    | BackendError(code: string)
      /** JavaScript `ReferenceError`, raised for an unknown driver. */
    | ReferenceError(message: string)
      /** JavaScript `TypeError`, e.g. calling a method on `undefined`. */
    | TypeError(message: string)
}

=== FILE: filters.dfy ===
/** lib/filters.jsx: which discovered migrations go up, which go down, and
    which one is current, judged against the recorded rows. */
module Filters {
  import opened Wrappers
  import opened JsValues
  import opened Records
  import opened Seqs

  /** A row for this name exists. */
  predicate IsRecorded(name: string, recorded: seq<Row>) {
    exists i | 0 <= i < |recorded| :: recorded[i].name == name
  }

  /** Some row for this name has a falsy `applied`. */
  predicate HasUnappliedRow(name: string, recorded: seq<Row>) {
    exists i | 0 <= i < |recorded| :: recorded[i].name == name && !Truthy(recorded[i].applied)
  }

  /** Some row for this name has `applied` strictly equal to `true`. */
  predicate HasAppliedRow(name: string, recorded: seq<Row>) {
    exists i | 0 <= i < |recorded| :: recorded[i].name == name && recorded[i].applied == Bool(true)
  }

  /** `_.find(recorded, rm => rm.name === name)`. */
  function FindByName(recorded: seq<Row>, name: string): (r: Option<Row>)
    ensures r.Some? ==> r.value in recorded && r.value.name == name
    ensures r.None? <==> !IsRecorded(name, recorded)
  {
    if |recorded| == 0 then None
    else if recorded[0].name == name then Some(recorded[0])
    else FindByName(recorded[1..], name)
  }

  /** `_.find(recorded, rm => m.name === rm.name && !rm.applied)`. */
  function FindUnapplied(recorded: seq<Row>, name: string): (r: Option<Row>)
    ensures r.Some? ==> r.value in recorded && r.value.name == name && !Truthy(r.value.applied)
    ensures r.None? <==> !HasUnappliedRow(name, recorded)
  {
    if |recorded| == 0 then None
    else if recorded[0].name == name && !Truthy(recorded[0].applied) then Some(recorded[0])
    else FindUnapplied(recorded[1..], name)
  }

  /** `_.find(recorded, rm => m.name === rm.name && rm.applied === true)`. */
  function FindApplied(recorded: seq<Row>, name: string): (r: Option<Row>)
    ensures r.Some? ==> r.value in recorded && r.value.name == name && r.value.applied == Bool(true)
    ensures r.None? <==> !HasAppliedRow(name, recorded)
  {
    if |recorded| == 0 then None
    else if recorded[0].name == name && recorded[0].applied == Bool(true) then Some(recorded[0])
    else FindApplied(recorded[1..], name)
  }

  /** The update rule for one migration: unknown, or known as not applied. */
  predicate Pending(m: Migration, recorded: seq<Row>) {
    !IsRecorded(m.name, recorded) || HasUnappliedRow(m.name, recorded)
  }

  /** `update(discovered, recorded)`: the migrations to run up, in discovery order. */
  function Update(discovered: seq<Migration>, recorded: seq<Row>): (r: seq<Migration>)
    ensures IsSubsequence(r, discovered)
    ensures forall m :: m in r <==> m in discovered && Pending(m, recorded)
  {
    if |discovered| == 0 then []
    else
      var m := discovered[0];
      var unknown := FindByName(recorded, m.name).None?;
      var notApplied := FindUnapplied(recorded, m.name).Some?;
      var rest := Update(discovered[1..], recorded);
      assert discovered == [m] + discovered[1..];
      if unknown || notApplied then
        SubsequenceCons(m, rest, discovered[1..]);
        [m] + rest
      else
        SubsequenceExtend(m, rest, discovered[1..]);
        rest
  }

  /** `rollback(discovered, recorded)`: the migrations recorded as applied,
      in discovery order (the orchestrator reverses them). */
  function Rollback(discovered: seq<Migration>, recorded: seq<Row>): (r: seq<Migration>)
    ensures IsSubsequence(r, discovered)
    ensures forall m :: m in r <==> m in discovered && HasAppliedRow(m.name, recorded)
  {
    if |discovered| == 0 then []
    else
      var m := discovered[0];
      var rest := Rollback(discovered[1..], recorded);
      assert discovered == [m] + discovered[1..];
      if FindApplied(recorded, m.name).Some? then
        SubsequenceCons(m, rest, discovered[1..]);
        [m] + rest
      else
        SubsequenceExtend(m, rest, discovered[1..]);
        rest
  }

  /** Filtering an update batch again with the same rows changes nothing. */
  lemma {:induction false} UpdateIdempotent(discovered: seq<Migration>, recorded: seq<Row>)
    ensures Update(Update(discovered, recorded), recorded) == Update(discovered, recorded)
  {
    if |discovered| > 0 {
      UpdateIdempotent(discovered[1..], recorded);
      var u := Update(discovered, recorded);
      if Pending(discovered[0], recorded) {
        assert u == [discovered[0]] + Update(discovered[1..], recorded);
        assert u[1..] == Update(discovered[1..], recorded);
      }
    }
  }

  /** Filtering a rollback batch again with the same rows changes nothing. */
  lemma {:induction false} RollbackIdempotent(discovered: seq<Migration>, recorded: seq<Row>)
    ensures Rollback(Rollback(discovered, recorded), recorded) == Rollback(discovered, recorded)
  {
    if |discovered| > 0 {
      RollbackIdempotent(discovered[1..], recorded);
      var u := Rollback(discovered, recorded);
      if HasAppliedRow(discovered[0].name, recorded) {
        assert u == [discovered[0]] + Rollback(discovered[1..], recorded);
        assert u[1..] == Rollback(discovered[1..], recorded);
      }
    }
  }

  /** Rows whose `applied` is a real boolean, at most one per name. */
  predicate CleanRows(recorded: seq<Row>) {
    && (forall i | 0 <= i < |recorded| :: recorded[i].applied.Bool?)
    && (forall i, j | 0 <= i < j < |recorded| :: recorded[i].name != recorded[j].name)
  }

  /** With clean rows a migration is pending exactly when it is not applied. */
  lemma PendingIffNotApplied(m: Migration, recorded: seq<Row>)
    requires CleanRows(recorded)
    ensures Pending(m, recorded) <==> !HasAppliedRow(m.name, recorded)
  {
    if HasAppliedRow(m.name, recorded) {
      var i :| 0 <= i < |recorded| && recorded[i].name == m.name && recorded[i].applied == Bool(true);
      forall j | 0 <= j < |recorded| && recorded[j].name == m.name
        ensures Truthy(recorded[j].applied)
      {
      }
    }
  }

  /** With clean rows, the update and rollback batches split the discovered
      migrations: every one lands in exactly one of them. */
  lemma {:induction false} UpdateRollbackPartition(discovered: seq<Migration>, recorded: seq<Row>)
    requires CleanRows(recorded)
    ensures multiset(Update(discovered, recorded)) + multiset(Rollback(discovered, recorded))
         == multiset(discovered)
    ensures forall m | m in discovered :: m in Update(discovered, recorded) <==> m !in Rollback(discovered, recorded)
  {
    if |discovered| > 0 {
      var m := discovered[0];
      var rest := discovered[1..];
      UpdateRollbackPartition(rest, recorded);
      PendingIffNotApplied(m, recorded);
      assert discovered == [m] + rest;
      if Pending(m, recorded) {
        assert Update(discovered, recorded) == [m] + Update(rest, recorded);
        assert Rollback(discovered, recorded) == Rollback(rest, recorded);
      } else {
        assert Update(discovered, recorded) == Update(rest, recorded);
        assert Rollback(discovered, recorded) == [m] + Rollback(rest, recorded);
      }
    }
    forall x | x in discovered
      ensures x in Update(discovered, recorded) <==> x !in Rollback(discovered, recorded)
    {
      PendingIffNotApplied(x, recorded);
    }
  }

  /** `_.findLastIndex(recorded, rm => rm.applied === true)`, -1 when none. */
  function LastAppliedIndex(recorded: seq<Row>): (i: int)
    ensures -1 <= i < |recorded|
    ensures i >= 0 ==> recorded[i].applied == Bool(true)
    ensures forall j | i < j < |recorded| :: recorded[j].applied != Bool(true)
    decreases |recorded|
  {
    if |recorded| == 0 then -1
    else if recorded[|recorded| - 1].applied == Bool(true) then |recorded| - 1
    else LastAppliedIndex(recorded[..|recorded| - 1])
  }

  /** `discovered[i]` in JavaScript: `undefined` past the end. */
  function At<T>(s: seq<T>, i: nat): (r: Option<T>)
    ensures r.Some? <==> i < |s|
    ensures r.Some? ==> r.value == s[i]
  {
    if i < |s| then Some(s[i]) else None
  }

  /** `current(discovered, recorded)`: indexes `discovered` with the position
      of the last applied row among the recorded ones (0 when none). */
  function Current<T>(discovered: seq<T>, recorded: seq<Row>): (r: Option<T>)
    ensures r.Some? ==> r.value in discovered
  {
    var last := LastAppliedIndex(recorded);
    At(discovered, if last == -1 then 0 else last)
  }

  /** No applied row: the first discovered migration, or nothing. */
  lemma CurrentWhenNothingApplied<T>(discovered: seq<T>, recorded: seq<Row>)
    requires forall j | 0 <= j < |recorded| :: recorded[j].applied != Bool(true)
    ensures |discovered| == 0 ==> Current(discovered, recorded) == None
    ensures |discovered| > 0 ==> Current(discovered, recorded) == Some(discovered[0])
  {
  }

  /** Row k is the last applied one: the migration at position k, or nothing
      when the discovered list is shorter. */
  lemma CurrentIsLastApplied<T>(discovered: seq<T>, recorded: seq<Row>, k: nat)
    requires k < |recorded| && recorded[k].applied == Bool(true)
    requires forall j | k < j < |recorded| :: recorded[j].applied != Bool(true)
    ensures k < |discovered| ==> Current(discovered, recorded) == Some(discovered[k])
    ensures k >= |discovered| ==> Current(discovered, recorded) == None
  {
  }
}

=== FILE: finder.dfy ===
/** lib/finder.jsx: checksums of step files and directions, and the
    migration record assembled from a migration's up and down files. The
    directory walk is not modelled: the file lists are inputs. The checksum
    function (SHA-1 in the source) is a parameter `hash`, applied to the list
    of strings `util.checksum` is called with. */
module Finder {
  import opened Wrappers
  import opened Errors
  import opened Records

  type Hash = seq<string> -> string

  /** A hash whose digest is never the empty string (true of SHA-1 hex). */
  ghost predicate NeverEmpty(hash: Hash) {
    forall xs :: hash(xs) != ""
  }

  /** `readFile`: the file with its own checksum, hash(filename, contents). */
  function ReadFile(hash: Hash, filename: string, contents: string): (f: StepFile)
    ensures f.filename == filename && f.contents == contents
  {
    StepFile(filename, contents, hash([filename, contents]))
  }

  /** The loop of `directionChecksum`: `sum = sum + checksum(filename, contents)`
      for each file in turn. */
  function SumFrom(hash: Hash, files: seq<StepFile>, sum: string): string
    decreases |files|
  {
    if |files| == 0 then sum
    else SumFrom(hash, files[1..], sum + hash([files[0].filename, files[0].contents]))
  }

  /** `directionChecksum(files)`: empty text for no files, otherwise the hash
      of the concatenated per-file checksums. */
  function DirectionChecksum(hash: Hash, files: seq<StepFile>): (r: string)
    ensures |files| == 0 ==> r == ""
  {
    var sum := SumFrom(hash, files, "");
    if sum == "" then sum else hash([sum])
  }

  /** Concatenation of a list of texts, as a reference definition. */
  function Concat(parts: seq<string>): string {
    if |parts| == 0 then "" else parts[0] + Concat(parts[1..])
  }

  /** The per-file checksums recomputed from filename and contents. */
  function FileSums(hash: Hash, files: seq<StepFile>): (r: seq<string>)
    ensures |r| == |files|
    ensures forall i | 0 <= i < |files| :: r[i] == hash([files[i].filename, files[i].contents])
  {
    seq(|files|, i requires 0 <= i < |files| => hash([files[i].filename, files[i].contents]))
  }

  lemma {:induction false} SumFromIsConcat(hash: Hash, files: seq<StepFile>, sum: string)
    ensures SumFrom(hash, files, sum) == sum + Concat(FileSums(hash, files))
    decreases |files|
  {
    if |files| > 0 {
      var h := hash([files[0].filename, files[0].contents]);
      SumFromIsConcat(hash, files[1..], sum + h);
      assert FileSums(hash, files) == [h] + FileSums(hash, files[1..]);
    }
  }

  /** With a real digest, a non-empty direction's checksum is the hash of the
      per-file checksums concatenated in list order. */
  lemma DirectionChecksumRollup(hash: Hash, files: seq<StepFile>)
    requires NeverEmpty(hash)
    requires |files| > 0
    ensures DirectionChecksum(hash, files) == hash([Concat(FileSums(hash, files))])
  {
    SumFromIsConcat(hash, files, "");
    var sums := FileSums(hash, files);
    assert sums[0] == hash([files[0].filename, files[0].contents]) != "";
    assert Concat(sums) == sums[0] + Concat(sums[1..]);
    assert "" + Concat(sums) == Concat(sums);
    assert SumFrom(hash, files, "") == Concat(sums);
  }

  /** Files read through `readFile` carry the checksum the rollup recomputes. */
  predicate Checksummed(hash: Hash, files: seq<StepFile>) {
    forall i | 0 <= i < |files| :: files[i].checksum == hash([files[i].filename, files[i].contents])
  }

  function StoredSums(files: seq<StepFile>): (r: seq<string>)
    ensures |r| == |files|
    ensures forall i | 0 <= i < |files| :: r[i] == files[i].checksum
  {
    seq(|files|, i requires 0 <= i < |files| => files[i].checksum)
  }

  /** The direction checksum is a rollup of the stored per-file checksums. */
  lemma DirectionChecksumOfStoredSums(hash: Hash, files: seq<StepFile>)
    requires NeverEmpty(hash) && Checksummed(hash, files) && |files| > 0
    ensures DirectionChecksum(hash, files) == hash([Concat(StoredSums(files))])
  {
    DirectionChecksumRollup(hash, files);
    assert FileSums(hash, files) == StoredSums(files);
  }

  /** The direction checksum depends only on the file names and contents, in
      order: equal inputs give equal checksums, whatever was stored beside them. */
  lemma DirectionChecksumContentOnly(hash: Hash, a: seq<StepFile>, b: seq<StepFile>)
    requires |a| == |b|
    requires forall i | 0 <= i < |a| :: a[i].filename == b[i].filename && a[i].contents == b[i].contents
    ensures DirectionChecksum(hash, a) == DirectionChecksum(hash, b)
  {
    SumFromIsConcat(hash, a, "");
    SumFromIsConcat(hash, b, "");
    assert FileSums(hash, a) == FileSums(hash, b);
  }

  /** The pairing rule of `util.checkIntegrity`: as many down files as up
      files, with the same names in the same order. */
  predicate Paired(up: seq<StepFile>, down: seq<StepFile>) {
    |up| == |down| && forall i | 0 <= i < |up| :: up[i].filename == down[i].filename
  }

  /** `util.checkIntegrity(up, down, name)`, called at lib/finder.jsx:40.
      lib/util.jsx exports only `twoDigits` and `snakeDate`, so the rule is the
      one test/migrations.js:26-44 asserts: walk both lists and name the first
      step that is missing on one side or named differently. */
  function CheckIntegrityFrom(up: seq<StepFile>, down: seq<StepFile>, name: string, i: nat): (r: Outcome<Error>)
    requires i <= |up| && i <= |down|
    requires forall j | 0 <= j < i :: up[j].filename == down[j].filename
    ensures r.Pass? <==> Paired(up, down)
    ensures r.Fail? ==> r.error.IntegrityError?
    decreases |up| + |down| - 2 * i
  {
    if i == |up| && i == |down| then Pass
    else if i == |up| then Fail(IntegrityError(name + "/up/" + down[i].filename))
    else if i == |down| then Fail(IntegrityError(name + "/down/" + up[i].filename))
    else if up[i].filename != down[i].filename then Fail(IntegrityError(name + "/down/" + up[i].filename))
    else CheckIntegrityFrom(up, down, name, i + 1)
  }

  function CheckIntegrity(up: seq<StepFile>, down: seq<StepFile>, name: string): (r: Outcome<Error>)
    ensures r.Pass? <==> Paired(up, down)
  {
    CheckIntegrityFrom(up, down, name, 0)
  }

  /** The record `read` builds once the pairing check has passed. */
  function Read(hash: Hash, name: string, up: seq<StepFile>, down: seq<StepFile>): (r: Result<Migration, Error>)
    ensures r.Ok? <==> Paired(up, down)
    ensures r.Err? ==> r.error.IntegrityError?
    ensures r.Ok? ==>
      && r.value.name == name
      && r.value.up.files == up && r.value.down.files == down
      && r.value.steps == |up|
  {
    match CheckIntegrity(up, down, name)
    case Fail(e) => Err(e)
    case Pass =>
      var upSum := DirectionChecksum(hash, up);
      var downSum := DirectionChecksum(hash, down);
      Ok(Migration(name, Steps(up, upSum), Steps(down, downSum), |up|, hash([upSum, downSum])))
  }

  /** A migration as discovery produces it: paired directions, the step
      count, and checksums that roll up from its files. */
  predicate WellFormed(hash: Hash, m: Migration) {
    && Paired(m.up.files, m.down.files)
    && m.steps == |m.up.files| == |m.down.files|
    && m.up.checksum == DirectionChecksum(hash, m.up.files)
    && m.down.checksum == DirectionChecksum(hash, m.down.files)
    && m.checksum == hash([m.up.checksum, m.down.checksum])
  }

  /** Everything `read` returns is well formed, and its checksum depends only
      on the names and contents of its files. */
  lemma ReadWellFormed(hash: Hash, name: string, up: seq<StepFile>, down: seq<StepFile>,
                       up': seq<StepFile>, down': seq<StepFile>)
    requires Read(hash, name, up, down).Ok?
    requires |up'| == |up| && forall i | 0 <= i < |up| :: up'[i].filename == up[i].filename && up'[i].contents == up[i].contents
    requires |down'| == |down| && forall i | 0 <= i < |down| :: down'[i].filename == down[i].filename && down'[i].contents == down[i].contents
    ensures WellFormed(hash, Read(hash, name, up, down).value)
    ensures Read(hash, name, up', down').Ok?
    ensures Read(hash, name, up', down').value.checksum == Read(hash, name, up, down).value.checksum
  {
    DirectionChecksumContentOnly(hash, up, up');
    DirectionChecksumContentOnly(hash, down, down');
  }
}

=== FILE: jsdate.dfy ===
/** The broken-down local time a JavaScript `Date` reports through its
    getters. Time-zone arithmetic is not modelled: a date is its components. */
module JsDate {

  /** `month0` is what `getMonth()` returns (0 = January). */
  datatype Date = Date(year: int, month0: nat, day: nat, hours: nat, minutes: nat, seconds: nat, ms: nat)

  /** Components in the ranges a real `Date` produces. */
  predicate InRange(d: Date) {
    && d.month0 < 12
    && 1 <= d.day <= 31
    && d.hours < 24
    && d.minutes < 60
    && d.seconds < 60
    && d.ms < 1000
  }

  /** A year printed with exactly four digits. */
  predicate FourDigitYear(d: Date) {
    1000 <= d.year <= 9999
  }
}

=== FILE: jsvalues.dfy ===
/** The loosely typed JavaScript values that flow through the type
    normaliser and the recorded rows, with the coercions the source uses. */
module JsValues {
  import opened Wrappers
  import opened Errors
  import Text

  /** Numbers are integer-valued here; `NaN` is kept because `undefined + 0`
      produces it. */
  datatype Value = Undefined | Null | Bool(b: bool) | Num(n: int) | NaN | Str(s: string)

  /** JavaScript truthiness (`!!v`). */
  predicate Truthy(v: Value) {
    match v
    case Undefined => false
    case Null => false
    case Bool(b) => b
    case Num(n) => n != 0
    case NaN => false
    case Str(s) => s != ""
  }

  /** `v.toString()`: a `TypeError` on `undefined` and `null`. */
  function ToStringOf(v: Value): (r: Result<string, Error>)
    ensures r.Err? <==> v == Undefined || v == Null
    ensures v.Str? ==> r == Ok(v.s)
  {
    match v
    case Undefined => Err(TypeError("Cannot read property 'toString' of undefined"))
    case Null => Err(TypeError("Cannot read property 'toString' of null"))
    case Bool(b) => Ok(if b then "true" else "false")
    case Num(n) => Ok(Text.IntToString(n))
    case NaN => Ok("NaN")
    case Str(s) => Ok(s)
  }

  /** `v + 0`: numeric addition, except that a string concatenates "0". */
  function PlusZero(v: Value): (r: Value)
    ensures v.Bool? ==> r == Num(if v.b then 1 else 0)
    ensures v.Str? ==> r == Str(v.s + "0")
    ensures r.Str? <==> v.Str?
  {
    match v
    case Undefined => NaN
    case Null => Num(0)
    case Bool(b) => Num(if b then 1 else 0)
    case Num(n) => Num(n)
    case NaN => NaN
    case Str(s) => Str(s + "0")
  }
}

=== FILE: migrations.dfy ===
/** lib/migrations.jsx: the orchestrator. It checks discovered migrations
    against the recorded rows, selects a batch, and applies the batch one
    migration at a time, each inside its own transaction, recording the
    outcome in the migration-state table afterwards.

    The table is a `seq<Row>`; the only statements that change it here are
    the orchestrator's own post-commit `update` and `insert`, whose effect on
    the rows is written out (`SetApplied`, `NewRow`). */
module Migrations {
  import opened Wrappers
  import opened Errors
  import opened JsValues
  import opened JsDate
  import opened Records
  import opened Seqs
  import Filters
  import Drivers
  import Persistence

  function TamperMessage(name: string): string {
    "Migration \"" + name + "\" has been tampered with, revert it before migrating"
  }

  // ---------------------------------------------------------------------
  // verifyLock as written

  /** `_.find(recorded, ({ n }) => n === name)`: the lookup keys on a
      property `n`, not on `name`. */
  function FindByKey(recorded: seq<Row>, name: string): (r: Option<Row>)
    ensures r.None? <==> forall i | 0 <= i < |recorded| :: recorded[i].n != Some(name)
    ensures r.Some? ==> r.value in recorded && r.value.n == Some(name)
  {
    if |recorded| == 0 then None
    else if recorded[0].n == Some(name) then Some(recorded[0])
    else FindByKey(recorded[1..], name)
  }

  /** The condition under which the `forEach` callback throws for `m`. */
  predicate LockTrips(m: Migration, latest: string, recorded: seq<Row>) {
    var known := FindByKey(recorded, m.name);
    known.Some? && latest == m.name && m.checksum != known.value.checksum
  }

  function VerifyLockFrom(ms: seq<Migration>, latest: string, recorded: seq<Row>): (r: Outcome<Error>)
    ensures r.Pass? <==> forall i | 0 <= i < |ms| :: !LockTrips(ms[i], latest, recorded)
    ensures r.Fail? ==> r.error == IntegrityError(TamperMessage(latest))
  {
    if |ms| == 0 then Pass
    else if LockTrips(ms[0], latest, recorded) then Fail(IntegrityError(TamperMessage(ms[0].name)))
    else
      var rest := VerifyLockFrom(ms[1..], latest, recorded);
      assert forall i | 1 <= i < |ms| :: ms[i] == ms[1..][i - 1];
      rest
  }

  /** `verifyLock(discovered, recorded)` as written: only the last discovered
      migration can trip it, and only through a row carrying `n`. An empty
      `discovered` never reaches `latest.name`. */
  function VerifyLock(discovered: seq<Migration>, recorded: seq<Row>): (r: Outcome<Error>)
    ensures |discovered| == 0 ==> r.Pass?
    ensures r.Fail? <==>
      |discovered| > 0 && exists i | 0 <= i < |discovered| :: LockTrips(discovered[i], discovered[|discovered| - 1].name, recorded)
    ensures r.Fail? ==> r.error == IntegrityError(TamperMessage(discovered[|discovered| - 1].name))
  {
    if |discovered| == 0 then Pass
    else VerifyLockFrom(discovered, discovered[|discovered| - 1].name, recorded)
  }

  /** Rows read back from the table never carry `n`, so against them the
      check as written never fails, whatever the checksums. */
  lemma VerifyLockIgnoresTableRows(discovered: seq<Migration>, recorded: seq<Row>)
    requires forall i | 0 <= i < |recorded| :: recorded[i].n.None?
    ensures VerifyLock(discovered, recorded) == Pass
  {
    if |discovered| > 0 {
      forall i | 0 <= i < |discovered|
        ensures !LockTrips(discovered[i], discovered[|discovered| - 1].name, recorded)
      {
        assert FindByKey(recorded, discovered[i].name).None?;
      }
    }
  }

  // ---------------------------------------------------------------------
  // The tamper check as intended

  /** The first row recorded under `m`'s name disagrees with its checksum. */
  predicate Tampered(m: Migration, recorded: seq<Row>) {
    var known := Filters.FindByName(recorded, m.name);
    known.Some? && m.checksum != known.value.checksum
  }

  function TamperCheckFrom(ms: seq<Migration>, recorded: seq<Row>): (r: Outcome<Error>)
    ensures r.Pass? <==> forall i | 0 <= i < |ms| :: !Tampered(ms[i], recorded)
    ensures r.Fail? ==> exists i | 0 <= i < |ms| ::
      Tampered(ms[i], recorded) && r.error == IntegrityError(TamperMessage(ms[i].name))
  {
    if |ms| == 0 then Pass
    else if Tampered(ms[0], recorded) then Fail(IntegrityError(TamperMessage(ms[0].name)))
    else
      var rest := TamperCheckFrom(ms[1..], recorded);
      assert forall i | 1 <= i < |ms| :: ms[i] == ms[1..][i - 1];
      rest
  }

  /** The check evidently intended: every discovered migration already
      recorded under its name must keep its recorded checksum, except the
      most recently discovered one, which may still be under edit. */
  function TamperCheck(discovered: seq<Migration>, recorded: seq<Row>): (r: Outcome<Error>)
    ensures r.Pass? <==> forall i | 0 <= i < |discovered| - 1 :: !Tampered(discovered[i], recorded)
    ensures r.Fail? ==> exists i | 0 <= i < |discovered| - 1 ::
      Tampered(discovered[i], recorded) && r.error == IntegrityError(TamperMessage(discovered[i].name))
  {
    if |discovered| == 0 then Pass
    else
      var r := TamperCheckFrom(discovered[..|discovered| - 1], recorded);
      assert forall i | 0 <= i < |discovered| - 1 :: discovered[i] == discovered[..|discovered| - 1][i];
      r
  }

  /** Whatever the latest migration's content, the verdict is the same. */
  lemma {:induction false} TamperCheckExemptsLatest(discovered: seq<Migration>, latest: Migration, recorded: seq<Row>)
    requires |discovered| > 0
    ensures TamperCheck(discovered[..|discovered| - 1] + [latest], recorded) == TamperCheck(discovered, recorded)
  {
    var d2 := discovered[..|discovered| - 1] + [latest];
    assert d2[..|d2| - 1] == discovered[..|discovered| - 1];
  }

  /** An edited, already recorded migration that is not the latest: the check
      as written lets it through, the intended check rejects it. */
  lemma VerifyLockMissesOlderEdit()
    ensures var a := Migration("20150101_000000_a", Steps([], ""), Steps([], ""), 0, "edited");
      var b := Migration("20150102_000000_b", Steps([], ""), Steps([], ""), 0, "b");
      var recorded := [Row("20150101_000000_a", Bool(true), None, "original", None)];
      && VerifyLock([a, b], recorded) == Pass
      && TamperCheck([a, b], recorded) == Fail(IntegrityError(TamperMessage("20150101_000000_a")))
  {
    var a := Migration("20150101_000000_a", Steps([], ""), Steps([], ""), 0, "edited");
    var b := Migration("20150102_000000_b", Steps([], ""), Steps([], ""), 0, "b");
    var recorded := [Row("20150101_000000_a", Bool(true), None, "original", None)];
    VerifyLockIgnoresTableRows([a, b], recorded);
    assert Tampered(a, recorded);
    assert [a, b][..1] == [a];
  }

  // ---------------------------------------------------------------------
  // Batches

  datatype Batch = Batch(recorded: seq<Row>, batch: seq<Migration>)

  /** Both sequences hold the same migrations, each as often. */
  predicate SameMigrations(a: seq<Migration>, b: seq<Migration>) {
    multiset(a) == multiset(b)
  }

  /** `filters.rollback`'s batch put newest first by `batch.reverse()`. */
  function RollbackBatch(discovered: seq<Migration>, recorded: seq<Row>): (r: Batch)
    ensures var rb := Filters.Rollback(discovered, recorded);
      && r.recorded == recorded
      && |r.batch| == |rb|
      && (forall i | 0 <= i < |rb| :: r.batch[i] == rb[|rb| - 1 - i])
  {
    NewestFirst(recorded, Filters.Rollback(discovered, recorded))
  }

  /** Reversing the rollback batch neither drops nor repeats a migration. */
  lemma RollbackBatchSameMigrations(discovered: seq<Migration>, recorded: seq<Row>)
    ensures SameMigrations(RollbackBatch(discovered, recorded).batch, Filters.Rollback(discovered, recorded))
  {
  }

  function NewestFirst(recorded: seq<Row>, rb: seq<Migration>): (r: Batch)
    ensures && r.recorded == recorded
            && |r.batch| == |rb|
            && (forall i | 0 <= i < |rb| :: r.batch[i] == rb[|rb| - 1 - i])
            && SameMigrations(r.batch, rb)
  {
    ReverseMultiset(rb);
    Batch(recorded, Reverse(rb))
  }

  /** `getUpdateBatch()` once discovery and `findAllByName` have answered:
      `verifyLock` as written, then `filters.update`. */
  function GetUpdateBatch(discovered: seq<Migration>, recorded: seq<Row>): (r: Result<Batch, Error>)
    ensures r.Ok? <==> VerifyLock(discovered, recorded).Pass?
    ensures r.Err? ==> |discovered| > 0 && r.error == IntegrityError(TamperMessage(discovered[|discovered| - 1].name))
    ensures r.Ok? ==> r.value == Batch(recorded, Filters.Update(discovered, recorded))
  {
    match VerifyLock(discovered, recorded)
    case Fail(e) => Err(e)
    case Pass => Ok(Batch(recorded, Filters.Update(discovered, recorded)))
  }

  /** `getRollbackBatch()` once discovery and `findLastAppliedMigrations`
      have answered: `verifyLock` as written, then the migrations to roll
      back, newest first. */
  function GetRollbackBatch(discovered: seq<Migration>, recorded: seq<Row>): (r: Result<Batch, Error>)
    ensures r.Ok? <==> VerifyLock(discovered, recorded).Pass?
    ensures r.Err? ==> |discovered| > 0 && r.error == IntegrityError(TamperMessage(discovered[|discovered| - 1].name))
    ensures r.Ok? ==> r.value == RollbackBatch(discovered, recorded)
  {
    match VerifyLock(discovered, recorded)
    case Fail(e) => Err(e)
    case Pass => Ok(RollbackBatch(discovered, recorded))
  }

  /** Rows read back from the table carry no `n`, so on them both batches
      are always selected: the tamper check as written never stops them. */
  lemma BatchesIgnoreTamperOnTableRows(discovered: seq<Migration>, recorded: seq<Row>)
    requires forall i | 0 <= i < |recorded| :: recorded[i].n.None?
    ensures GetUpdateBatch(discovered, recorded) == Ok(Batch(recorded, Filters.Update(discovered, recorded)))
    ensures GetRollbackBatch(discovered, recorded) == Ok(RollbackBatch(discovered, recorded))
  {
    VerifyLockIgnoresTableRows(discovered, recorded);
  }

  /** `getUpdateBatch()` as evidently intended: gated on `TamperCheck`. */
  function GetUpdateBatchIntended(discovered: seq<Migration>, recorded: seq<Row>): (r: Result<Batch, Error>)
    ensures r.Ok? <==> TamperCheck(discovered, recorded).Pass?
    ensures r.Err? ==> exists i | 0 <= i < |discovered| - 1 ::
      Tampered(discovered[i], recorded) && r.error == IntegrityError(TamperMessage(discovered[i].name))
    ensures r.Ok? ==> r.value == Batch(recorded, Filters.Update(discovered, recorded))
  {
    match TamperCheck(discovered, recorded)
    case Fail(e) => Err(e)
    case Pass => Ok(Batch(recorded, Filters.Update(discovered, recorded)))
  }

  /** `getRollbackBatch()` as evidently intended: gated on `TamperCheck`. */
  function GetRollbackBatchIntended(discovered: seq<Migration>, recorded: seq<Row>): (r: Result<Batch, Error>)
    ensures r.Ok? <==> TamperCheck(discovered, recorded).Pass?
    ensures r.Err? ==> exists i | 0 <= i < |discovered| - 1 ::
      Tampered(discovered[i], recorded) && r.error == IntegrityError(TamperMessage(discovered[i].name))
    ensures r.Ok? ==> r.value == RollbackBatch(discovered, recorded)
  {
    match TamperCheck(discovered, recorded)
    case Fail(e) => Err(e)
    case Pass => Ok(RollbackBatch(discovered, recorded))
  }

  /** Whenever the intended check lets a batch through, the code as written
      selects the same batch on table rows; it differs only by also letting
      tampered batches through. */
  lemma IntendedBatchesAgreeWhenUntampered(discovered: seq<Migration>, recorded: seq<Row>)
    requires forall i | 0 <= i < |recorded| :: recorded[i].n.None?
    requires TamperCheck(discovered, recorded).Pass?
    ensures GetUpdateBatchIntended(discovered, recorded) == GetUpdateBatch(discovered, recorded)
    ensures GetRollbackBatchIntended(discovered, recorded) == GetRollbackBatch(discovered, recorded)
  {
    BatchesIgnoreTamperOnTableRows(discovered, recorded);
  }

  // ---------------------------------------------------------------------
  // Applying

  /** The files of one direction in the order they run: as listed going up,
      reversed going down. */
  function RunOrder(m: Migration, dir: Direction): (r: seq<StepFile>)
    ensures |r| == |StepsOf(m, dir).files|
    ensures dir == Up ==> r == m.up.files
    ensures dir == Down ==> forall i | 0 <= i < |r| :: r[i] == m.down.files[|r| - 1 - i]
  {
    if dir == Down then Reverse(m.down.files) else m.up.files
  }

  /** `${name}/${direction}/${filename}`. */
  function StepLabel(m: Migration, dir: Direction, f: StepFile): string {
    m.name + "/" + DirectionName(dir) + "/" + f.filename
  }

  /** The labelled statements of one migration in one direction. */
  function StepQueries(m: Migration, dir: Direction): (r: seq<Drivers.Query>)
    ensures |r| == |StepsOf(m, dir).files|
    ensures forall i | 0 <= i < |r| ::
      var f := if dir == Up then m.up.files[i] else m.down.files[|r| - 1 - i];
      r[i] == Drivers.Query(StepLabel(m, dir, f), f.contents, [])
  {
    var files := RunOrder(m, dir);
    seq(|files|, i requires 0 <= i < |files| => Drivers.Query(StepLabel(m, dir, files[i]), files[i].contents, []))
  }

  /** Going down runs the down files back to front: the down statements
      reversed are the down files in listed order. */
  lemma DownIsReversed(m: Migration)
    ensures Reverse(StepQueries(m, Down))
         == seq(|m.down.files|, i requires 0 <= i < |m.down.files| =>
              Drivers.Query(StepLabel(m, Down, m.down.files[i]), m.down.files[i].contents, []))
  {
  }

  /** The row `insert` adds for a migration met for the first time. */
  function NewRow(m: Migration, now: Date): Row {
    Row(m.name, Bool(true), Some(now), m.checksum, None)
  }

  /** The effect of `UPDATE ... SET applied = ? WHERE name = ?` on the rows:
      every row of that name takes the new value; nothing else changes. */
  function SetApplied(table: seq<Row>, name: string, applied: Value): (r: seq<Row>)
    ensures |r| == |table|
    ensures forall i | 0 <= i < |table| ::
      r[i] == if table[i].name == name then table[i].(applied := applied) else table[i]
  {
    seq(|table|, i requires 0 <= i < |table| =>
      if table[i].name == name then table[i].(applied := applied) else table[i])
  }

  /** What applying did: the model afterwards, the migration-state table,
      the calls made, and the verdict. */
  datatype Applied = Applied(model: Persistence.Model, table: seq<Row>, calls: seq<Persistence.Call>, outcome: Outcome<Error>)

  function Verdict<T>(r: Result<T, Error>): (o: Outcome<Error>)
    ensures o.Pass? <==> r.Ok?
    ensures r.Err? ==> o == Fail(r.error)
  {
    if r.Ok? then Pass else Fail(r.error)
  }

  /** The model's two state-table writes, as the orchestrator calls them. */
  datatype Writer = Writer(
    update: (Persistence.Model, Value, Value, Outcome<string>, Drivers.Exec) -> Persistence.Effect<Drivers.QueryResult>,
    insert: (Persistence.Model, Persistence.InsertValues, Outcome<string>, Drivers.Exec) -> Persistence.Effect<Drivers.QueryResult>)

  const Writes := Writer(Persistence.Update, Persistence.Insert)

  /** `applyMigration({ migration, recorded, direction })`: the migration's
      steps in one transaction; once committed, the recorded row is updated
      if the (pre-batch) `recorded` rows know the name, and a new row is
      inserted otherwise. `w` holds the model's writes (`Writes` in the
      orchestrator), `reply` answers the model's connect, `now` is the clock,
      `exec` the backend. */
  function ApplyMigration(w: Writer, model: Persistence.Model, table: seq<Row>, m: Migration, recorded: seq<Row>,
                          dir: Direction, now: Date, reply: Outcome<string>, exec: Drivers.Exec): (r: Applied)
    ensures var tx := Drivers.Transaction(model.driver, StepQueries(m, dir), exec);
      && |r.calls| >= |tx.trace|
      && r.calls[..|tx.trace|] == Persistence.Sends(tx.trace)
      && (tx.outcome.Err? ==> r.outcome == Fail(tx.outcome.error) && r.table == table)
    ensures r.outcome.Fail? ==> r.table == table
    ensures r.outcome.Pass? && Filters.IsRecorded(m.name, recorded) ==>
      r.table == SetApplied(table, m.name, Bool(dir == Up))
    ensures r.outcome.Pass? && !Filters.IsRecorded(m.name, recorded) ==>
      r.table == table + [NewRow(m, now)]
    ensures var tx := Drivers.Transaction(model.driver, StepQueries(m, dir), exec);
      tx.outcome.Ok? ==>
        var e := if Filters.IsRecorded(m.name, recorded)
          then w.update(model, Str(m.name), Bool(dir == Up), reply, exec)
          else w.insert(model, Persistence.InsertValues(Str(m.name), Bool(true), now, Str(m.checksum)), reply, exec);
        && r.calls == Persistence.Sends(tx.trace) + e.calls
        && r.outcome == Verdict(e.outcome)
        && r.model == e.model
  {
    var tx := Drivers.Transaction(model.driver, StepQueries(m, dir), exec);
    var sent := Persistence.Sends(tx.trace);
    if tx.outcome.Err? then Applied(model, table, sent, Fail(tx.outcome.error))
    else
      // `known` is found by name, so `known.name` is `m.name`.
      var known := Filters.IsRecorded(m.name, recorded);
      var e := if known
        then w.update(model, Str(m.name), Bool(dir == Up), reply, exec)
        else w.insert(model, Persistence.InsertValues(Str(m.name), Bool(true), now, Str(m.checksum)), reply, exec);
      Record(table, sent, e, if known then SetApplied(table, m.name, Bool(dir == Up)) else table + [NewRow(m, now)])
  }

  /** The post-commit bookkeeping: its calls follow the transaction's, and
      the table changes only when the state-table write succeeded. */
  function Record(table: seq<Row>, sent: seq<Persistence.Call>, e: Persistence.Effect<Drivers.QueryResult>,
                  after: seq<Row>): (r: Applied)
    ensures |r.calls| >= |sent| && r.calls[..|sent|] == sent
    ensures r.outcome.Fail? ==> r.table == table
    ensures r.outcome.Pass? ==> r.table == after
  {
    assert (sent + e.calls)[..|sent|] == sent;
    Applied(e.model, if e.outcome.Ok? then after else table, sent + e.calls, Verdict(e.outcome))
  }

  /** One migration applied to a model and a table; the rest of the
      orchestrator's inputs (`recorded`, direction, clock, backend) fixed. */
  type Stepper = (Persistence.Model, seq<Row>, Migration) -> Applied

  function StepWith(recorded: seq<Row>, dir: Direction, now: Date, reply: Outcome<string>, exec: Drivers.Exec): Stepper {
    (mo: Persistence.Model, t: seq<Row>, m: Migration) => ApplyMigration(Writes, mo, t, m, recorded, dir, now, reply, exec)
  }

  /** The `for ... of batch` loop: one migration at a time, stopping at the
      first that fails; the calls are those of each migration in turn. */
  function ApplyAll(step: Stepper, model: Persistence.Model, table: seq<Row>, batch: seq<Migration>): (r: Applied)
    decreases |batch|
    ensures |batch| == 0 ==> r == Applied(model, table, [], Pass)
    ensures |batch| > 0 ==>
      var first := step(model, table, batch[0]);
      && |r.calls| >= |first.calls|
      && r.calls[..|first.calls|] == first.calls
      && (first.outcome.Fail? ==> r == first)
  {
    if |batch| == 0 then Applied(model, table, [], Pass)
    else
      var first := step(model, table, batch[0]);
      if first.outcome.Fail? then first
      else
        var rest := ApplyAll(step, first.model, first.table, batch[1..]);
        assert (first.calls + rest.calls)[..|first.calls|] == first.calls;
        Applied(rest.model, rest.table, first.calls + rest.calls, rest.outcome)
  }

  /** Applying `b1 + b2` is applying `b1`, then — only if all of it passed —
      applying `b2` from where `b1` left the model and the table. In
      particular, what `b1` committed stays when something in `b2` fails. */
  lemma {:induction false} ApplyAllSplit(step: Stepper, model: Persistence.Model, table: seq<Row>, b1: seq<Migration>, b2: seq<Migration>)
    ensures var a := ApplyAll(step, model, table, b1);
      ApplyAll(step, model, table, b1 + b2)
      == if a.outcome.Fail? then a
         else
           var b := ApplyAll(step, a.model, a.table, b2);
           Applied(b.model, b.table, a.calls + b.calls, b.outcome)
    decreases |b1|
  {
    if |b1| == 0 {
      assert b1 + b2 == b2;
    } else {
      assert (b1 + b2)[0] == b1[0];
      assert (b1 + b2)[1..] == b1[1..] + b2;
      var first := step(model, table, b1[0]);
      if first.outcome.Pass? {
        ApplyAllSplit(step, first.model, first.table, b1[1..], b2);
        var a := ApplyAll(step, first.model, first.table, b1[1..]);
        if a.outcome.Pass? {
          var b := ApplyAll(step, a.model, a.table, b2);
          assert first.calls + (a.calls + b.calls) == (first.calls + a.calls) + b.calls;
        }
      }
    }
  }

  /** A migration keeps a connected model connected. */
  lemma StepKeepsConnection(recorded: seq<Row>, dir: Direction, now: Date, reply: Outcome<string>, exec: Drivers.Exec,
                            model: Persistence.Model, table: seq<Row>, m: Migration)
    requires model.connected
    ensures StepWith(recorded, dir, now, reply, exec)(model, table, m).model.connected
  {
  }

  lemma {:induction false} ConnectedStays(step: Stepper, model: Persistence.Model, table: seq<Row>, batch: seq<Migration>)
    requires model.connected
    requires forall mo: Persistence.Model, t, m | mo.connected :: step(mo, t, m).model.connected
    ensures ApplyAll(step, model, table, batch).model.connected
    decreases |batch|
  {
    if |batch| > 0 {
      var first := step(model, table, batch[0]);
      if first.outcome.Pass? {
        ConnectedStays(step, first.model, first.table, batch[1..]);
      }
    }
  }

  /** `applyBatch({ batch, recorded, direction })`: an empty batch is
      rejected before anything else happens; otherwise the model connects
      once and the migrations are applied in order. */
  function ApplyBatch(model: Persistence.Model, table: seq<Row>, batch: seq<Migration>, recorded: seq<Row>,
                      dir: Direction, now: Date, reply: Outcome<string>, exec: Drivers.Exec): (r: Applied)
    ensures |batch| == 0 ==> r == Applied(model, table, [], Fail(EmptyBatchError))
    ensures |batch| > 0 && !model.connected ==> |r.calls| > 0 && r.calls[0] == Persistence.ConnectDriver
    ensures r.outcome.Pass? ==> |batch| > 0 && r.model.connected
  {
    if |batch| == 0 then Applied(model, table, [], Fail(EmptyBatchError))
    else
      var c := Persistence.Connect(model, reply);
      if c.outcome.Err? then Applied(c.model, table, c.calls, Fail(c.outcome.error))
      else
        var step := StepWith(recorded, dir, now, reply, exec);
        var a := ApplyAll(step, c.model, table, batch);
        assert a.model.connected by {
          forall mo: Persistence.Model, t, m | mo.connected ensures step(mo, t, m).model.connected {
            StepKeepsConnection(recorded, dir, now, reply, exec, mo, t, m);
          }
          ConnectedStays(step, c.model, table, batch);
        }
        Applied(a.model, a.table, c.calls + a.calls, a.outcome)
  }

  // ---------------------------------------------------------------------
  // Going up settles every migration

  /** Recorded and not pending: nothing left to run up. */
  predicate Settled(name: string, table: seq<Row>) {
    Filters.IsRecorded(name, table) && !Filters.HasUnappliedRow(name, table)
  }

  /** How the table relates to the pre-batch snapshot while a batch runs:
      every snapshot name is still there, and every row under a name the
      snapshot does not know was inserted as applied. */
  predicate Tracks(recorded: seq<Row>, table: seq<Row>) {
    && (forall i | 0 <= i < |recorded| :: Filters.IsRecorded(recorded[i].name, table))
    && (forall i | 0 <= i < |table| :: !Filters.IsRecorded(table[i].name, recorded) ==> table[i].applied == Bool(true))
  }

  /** What a successful up-migration does to the table keeps the snapshot
      tracked, settles the migration and unsettles nothing. */
  ghost predicate SettlesUp(recorded: seq<Row>, table: seq<Row>, t: seq<Row>, name: string) {
    Tracks(recorded, t) && Settled(name, t) && forall n :: Settled(n, table) ==> Settled(n, t)
  }

  lemma SetAppliedSettles(recorded: seq<Row>, table: seq<Row>, name: string)
    requires Tracks(recorded, table) && Filters.IsRecorded(name, recorded)
    ensures SettlesUp(recorded, table, SetApplied(table, name, Bool(true)), name)
  {
    var t := SetApplied(table, name, Bool(true));
    var j :| 0 <= j < |recorded| && recorded[j].name == name;
    var k :| 0 <= k < |table| && table[k].name == name;
    assert t[k].name == name;
    forall i | 0 <= i < |recorded| ensures Filters.IsRecorded(recorded[i].name, t) {
      var k :| 0 <= k < |table| && table[k].name == recorded[i].name;
      assert t[k].name == table[k].name;
    }
    forall n | Settled(n, table) ensures Settled(n, t) {
      var k :| 0 <= k < |table| && table[k].name == n;
      assert t[k].name == n;
    }
  }

  lemma AppendSettles(recorded: seq<Row>, table: seq<Row>, row: Row)
    requires Tracks(recorded, table) && !Filters.IsRecorded(row.name, recorded) && row.applied == Bool(true)
    ensures SettlesUp(recorded, table, table + [row], row.name)
  {
    var t := table + [row];
    assert t[|table|] == row;
    forall i | 0 <= i < |recorded| ensures Filters.IsRecorded(recorded[i].name, t) {
      var k :| 0 <= k < |table| && table[k].name == recorded[i].name;
      assert t[k] == table[k];
    }
    forall n | Settled(n, table) ensures Settled(n, t) {
      var k :| 0 <= k < |table| && table[k].name == n;
      assert t[k] == table[k];
    }
  }

  lemma UpMigrationSettles(recorded: seq<Row>, now: Date, reply: Outcome<string>, exec: Drivers.Exec,
                           model: Persistence.Model, table: seq<Row>, m: Migration)
    requires Tracks(recorded, table)
    requires StepWith(recorded, Up, now, reply, exec)(model, table, m).outcome.Pass?
    ensures SettlesUp(recorded, table, StepWith(recorded, Up, now, reply, exec)(model, table, m).table, m.name)
  {
    if Filters.IsRecorded(m.name, recorded) {
      SetAppliedSettles(recorded, table, m.name);
    } else {
      AppendSettles(recorded, table, NewRow(m, now));
    }
  }

  lemma {:induction false} UpBatchSettles(step: Stepper, recorded: seq<Row>, model: Persistence.Model, table: seq<Row>, batch: seq<Migration>)
    requires Tracks(recorded, table)
    requires forall mo, t, m | Tracks(recorded, t) && step(mo, t, m).outcome.Pass? ::
      SettlesUp(recorded, t, step(mo, t, m).table, m.name)
    requires ApplyAll(step, model, table, batch).outcome.Pass?
    ensures var t := ApplyAll(step, model, table, batch).table;
      && (forall i | 0 <= i < |batch| :: Settled(batch[i].name, t))
      && forall n :: Settled(n, table) ==> Settled(n, t)
    decreases |batch|
  {
    if |batch| > 0 {
      var first := step(model, table, batch[0]);
      UpBatchSettles(step, recorded, first.model, first.table, batch[1..]);
      var t := ApplyAll(step, model, table, batch).table;
      forall i | 0 <= i < |batch| ensures Settled(batch[i].name, t) {
        if i > 0 {
          assert batch[i] == batch[1..][i - 1];
        }
      }
    }
  }

  /** A batch that went through did so from the connected model. */
  lemma ApplyBatchUnfolds(model: Persistence.Model, table: seq<Row>, batch: seq<Migration>, recorded: seq<Row>,
                          dir: Direction, now: Date, reply: Outcome<string>, exec: Drivers.Exec)
    requires ApplyBatch(model, table, batch, recorded, dir, now, reply, exec).outcome.Pass?
    ensures var a := ApplyAll(StepWith(recorded, dir, now, reply, exec), Persistence.Connect(model, reply).model, table, batch);
      && a.outcome.Pass?
      && ApplyBatch(model, table, batch, recorded, dir, now, reply, exec).table == a.table
  {
  }

  /** No discovered migration is pending once every migration of the
      update batch is settled and nothing settled before became unsettled. */
  lemma UpdateEmptyWhenSettled(discovered: seq<Migration>, recorded: seq<Row>, t: seq<Row>)
    requires forall m | m in Filters.Update(discovered, recorded) :: Settled(m.name, t)
    requires forall n :: Settled(n, recorded) ==> Settled(n, t)
    ensures Filters.Update(discovered, t) == []
  {
    var batch := Filters.Update(discovered, recorded);
    forall m | m in discovered ensures !Filters.Pending(m, t) {
      if Filters.Pending(m, recorded) {
        assert m in batch;
      } else {
        assert Settled(m.name, recorded);
      }
    }
    NothingPendingMeansEmpty(discovered, t);
  }

  lemma {:induction false} NothingPendingMeansEmpty(discovered: seq<Migration>, t: seq<Row>)
    requires forall i | 0 <= i < |discovered| :: !Filters.Pending(discovered[i], t)
    ensures Filters.Update(discovered, t) == []
  {
    if |discovered| > 0 {
      NothingPendingMeansEmpty(discovered[1..], t);
    }
  }

  /** Once the update batch has gone up without error, against the table it
      was selected from, a fresh update batch is empty. */
  lemma UpThenUpToDate(discovered: seq<Migration>, recorded: seq<Row>, model: Persistence.Model,
                       now: Date, reply: Outcome<string>, exec: Drivers.Exec)
    requires ApplyBatch(model, recorded, Filters.Update(discovered, recorded), recorded, Up, now, reply, exec).outcome.Pass?
    ensures Filters.Update(discovered, ApplyBatch(model, recorded, Filters.Update(discovered, recorded), recorded,
                                                  Up, now, reply, exec).table) == []
  {
    var batch := Filters.Update(discovered, recorded);
    ApplyBatchUnfolds(model, recorded, batch, recorded, Up, now, reply, exec);
    StepWithSettlesUp(recorded, now, reply, exec);
    UpBatchLeavesNothingPending(StepWith(recorded, Up, now, reply, exec), discovered, recorded,
                                Persistence.Connect(model, reply).model);
  }

  /** Every successful up step settles its migration and keeps what was settled. */
  lemma StepWithSettlesUp(recorded: seq<Row>, now: Date, reply: Outcome<string>, exec: Drivers.Exec)
    ensures var step := StepWith(recorded, Up, now, reply, exec);
      forall mo, t, m | Tracks(recorded, t) && step(mo, t, m).outcome.Pass? ::
        SettlesUp(recorded, t, step(mo, t, m).table, m.name)
  {
    var step := StepWith(recorded, Up, now, reply, exec);
    forall mo, t, m | Tracks(recorded, t) && step(mo, t, m).outcome.Pass?
      ensures SettlesUp(recorded, t, step(mo, t, m).table, m.name)
    {
      UpMigrationSettles(recorded, now, reply, exec, mo, t, m);
    }
  }

  /** For any settling step: once the update batch has gone through without
      error, nothing discovered is pending against the resulting table. */
  lemma UpBatchLeavesNothingPending(step: Stepper, discovered: seq<Migration>, recorded: seq<Row>, model: Persistence.Model)
    requires forall mo, t, m | Tracks(recorded, t) && step(mo, t, m).outcome.Pass? ::
      SettlesUp(recorded, t, step(mo, t, m).table, m.name)
    requires ApplyAll(step, model, recorded, Filters.Update(discovered, recorded)).outcome.Pass?
    ensures Filters.Update(discovered, ApplyAll(step, model, recorded, Filters.Update(discovered, recorded)).table) == []
  {
    var batch := Filters.Update(discovered, recorded);
    UpBatchSettles(step, recorded, model, recorded, batch);
    var t := ApplyAll(step, model, recorded, batch).table;
    forall m | m in batch ensures Settled(m.name, t) {
      var i :| 0 <= i < |batch| && batch[i] == m;
    }
    UpdateEmptyWhenSettled(discovered, recorded, t);
  }
}

=== FILE: model.dfy ===
/** lib/db/model.jsx: the persistence model of the migration-state table.
    It owns one driver, keeps the driver's `connected` flag, connects before
    every data operation and builds each operation's statement. */
module Persistence {
  import opened Wrappers
  import opened Errors
  import opened JsValues
  import opened JsDate
  import opened Records
  import Types
  import Drivers
  import Pg

  datatype Config = Config(driver: string, tableName: string)

  /** A model: its configuration, its driver, the type wrapper bound to the
      driver's name, and the driver's `connected` state. */
  datatype Model = Model(config: Config, driver: Drivers.Driver, types: Types.TypeWrapper, connected: bool)

  /** The constructor's message as written: it interpolates the failed
      registry lookup, which is always `undefined`, not the driver's name. */
  function UnknownDriverMessageAsWritten(driver: string): string {
    "Unknown driver " + "undefined"
  }

  /** The message evidently intended: the name that was not found. */
  function UnknownDriverMessage(driver: string): (r: string)
    ensures |r| >= |driver| && r[|r| - |driver|..] == driver
  {
    "Unknown driver " + driver
  }

  /** The as-written message cannot tell two unknown drivers apart. */
  lemma UnknownDriverMessageLosesName()
    ensures UnknownDriverMessageAsWritten("mysql") == UnknownDriverMessageAsWritten("oracle")
    ensures UnknownDriverMessage("mysql") != UnknownDriverMessage("oracle")
  {
    assert UnknownDriverMessage("mysql")[15] != UnknownDriverMessage("oracle")[15];
  }

  /** The intended message names the driver, so different names give
      different messages. */
  lemma UnknownDriverMessageInjective(a: string, b: string)
    requires UnknownDriverMessage(a) == UnknownDriverMessage(b)
    ensures a == b
  {
    var prefix := "Unknown driver ";
    assert UnknownDriverMessage(a)[|prefix|..] == a;
    assert UnknownDriverMessage(b)[|prefix|..] == b;
  }

  /** `new Model(configuration)`: only the registered drivers are accepted;
      the driver starts disconnected. An unknown driver is rejected with the
      message as written, the same whatever the name. */
  function New(config: Config): (r: Result<Model, Error>)
    ensures r.Ok? <==> Drivers.Registry(config.driver).Some?
    ensures r.Err? ==> r.error == ReferenceError("Unknown driver undefined")
    ensures r.Ok? ==>
      && r.value.config == config
      && !r.value.connected
      && r.value.driver.tableName == config.tableName
      && (r.value.driver.kind == Drivers.PgDriver <==> config.driver == "pg")
      && Drivers.KindName(r.value.driver.kind) == config.driver
      && r.value.types.driver == config.driver
  {
    match Drivers.Registry(config.driver)
    case None =>
      assert UnknownDriverMessageAsWritten(config.driver) == "Unknown driver undefined";
      Err(ReferenceError(UnknownDriverMessageAsWritten(config.driver)))
    case Some(kind) => Ok(Connectable(config, kind))
  }

  function Connectable(config: Config, kind: Drivers.Kind): Model {
    Model(config, Drivers.Driver(kind, config.tableName), Types.TypeWrapper(config.driver), false)
  }

  /** The constructor as evidently intended: the same models, and an unknown
      driver rejected with a message that names it. */
  function NewIntended(config: Config): (r: Result<Model, Error>)
    ensures r.Ok? <==> Drivers.Registry(config.driver).Some?
    ensures r.Err? ==> r.error == ReferenceError(UnknownDriverMessage(config.driver))
    ensures r.Ok? ==> r == New(config)
  {
    match Drivers.Registry(config.driver)
    case None => Err(ReferenceError(UnknownDriverMessage(config.driver)))
    case Some(kind) => Ok(Connectable(config, kind))
  }

  /** The two constructors differ only in the message for an unknown driver:
      the intended one tells two unknown drivers apart, the one as written
      does not. */
  lemma NewIntendedNamesDriver(a: Config, b: Config)
    requires New(a).Err? && New(b).Err?
    ensures New(a) == New(b)
    ensures NewIntended(a) == NewIntended(b) <==> a.driver == b.driver
  {
    if NewIntended(a) == NewIntended(b) {
      UnknownDriverMessageInjective(a.driver, b.driver);
    }
  }

  /** What the model asks of its driver. */
  datatype Call = ConnectDriver | DisconnectDriver | Send(event: Drivers.Event)

  /** An operation's effect: the model after it, the calls made in order, and
      the outcome. */
  datatype Effect<T> = Effect(model: Model, calls: seq<Call>, outcome: Result<T, Error>)

  /** `connect()`: a no-op when already connected; otherwise the driver's own
      connect, whose answer `reply` decides the new state. */
  function Connect(m: Model, reply: Outcome<string>): (r: Effect<()>)
    ensures m.connected ==> r == Effect(m, [], Ok(()))
    ensures !m.connected ==> r.calls == [ConnectDriver]
    ensures r.outcome.Ok? <==> r.model.connected
    ensures r.model == m.(connected := r.model.connected)
  {
    if m.connected then Effect(m, [], Ok(()))
    else
      match reply
      case Pass => Effect(m.(connected := true), [ConnectDriver], Ok(()))
      case Fail(code) => Effect(m, [ConnectDriver], Err(BackendError(code)))
  }

  /** `disconnect()`: a no-op when not connected; otherwise the driver's own
      disconnect. */
  function Disconnect(m: Model, reply: Outcome<string>): (r: Effect<()>)
    ensures !m.connected ==> r == Effect(m, [], Ok(()))
    ensures m.connected ==> r.calls == [DisconnectDriver]
    ensures r.outcome.Ok? <==> !r.model.connected
    ensures r.model == m.(connected := r.model.connected)
  {
    if !m.connected then Effect(m, [], Ok(()))
    else
      match reply
      case Pass => Effect(m.(connected := false), [DisconnectDriver], Ok(()))
      case Fail(code) => Effect(m, [DisconnectDriver], Err(BackendError(code)))
  }

  /** Connecting twice connects the driver at most once: after a successful
      connect, a second one makes no call, whatever the driver would answer. */
  lemma ConnectIdempotent(m: Model, first: Outcome<string>, second: Outcome<string>)
    requires Connect(m, first).outcome.Ok?
    ensures Connect(Connect(m, first).model, second) == Effect(Connect(m, first).model, [], Ok(()))
  {
  }

  /** Disconnecting twice disconnects the driver at most once. */
  lemma DisconnectIdempotent(m: Model, first: Outcome<string>, second: Outcome<string>)
    requires Disconnect(m, first).outcome.Ok?
    ensures Disconnect(Disconnect(m, first).model, second) == Effect(Disconnect(m, first).model, [], Ok(()))
  {
  }

  /** A successful disconnect undoes a successful connect. */
  lemma DisconnectUndoesConnect(m: Model, up: Outcome<string>, down: Outcome<string>)
    requires !m.connected && Connect(m, up).outcome.Ok?
    requires Disconnect(Connect(m, up).model, down).outcome.Ok?
    ensures Disconnect(Connect(m, up).model, down).model == m
  {
  }

  function Sends(trace: seq<Drivers.Event>): (r: seq<Call>)
    ensures |r| == |trace|
    ensures forall i | 0 <= i < |trace| :: r[i] == Send(trace[i])
  {
    seq(|trace|, i requires 0 <= i < |trace| => Send(trace[i]))
  }

  /** The calls a successful connect makes from state `m`. */
  function ConnectCalls(m: Model): seq<Call> {
    if m.connected then [] else [ConnectDriver]
  }

  /** `this.connect().then(() => this.driver.query(sql, params))`: the
      statement is built after the connection is established, and a
      statement that cannot be built rejects without reaching the driver. */
  function Perform(m: Model, reply: Outcome<string>, stmt: Result<Drivers.Stmt, Error>, exec: Drivers.Exec)
    : (r: Effect<Drivers.QueryResult>)
    ensures r.model == Connect(m, reply).model
    ensures !m.connected ==> |r.calls| >= 1 && r.calls[0] == ConnectDriver
    ensures (exists i | 0 <= i < |r.calls| :: r.calls[i].Send?) ==> r.model.connected && stmt.Ok?
    ensures r.outcome.Ok? ==>
      && stmt.Ok?
      && r.calls == ConnectCalls(m)
                    + Sends([Drivers.Issue(Drivers.Stmt(Drivers.CreateStatement(m.driver), [])),
                             Drivers.Issue(Drivers.Stmt(Drivers.Sql(m.driver, stmt.value.sql), stmt.value.params)),
                             Drivers.Close])
  {
    var c := Connect(m, reply);
    if c.outcome.Err? then Effect(c.model, c.calls, Err(c.outcome.error))
    else if stmt.Err? then Effect(c.model, c.calls, Err(stmt.error))
    else
      var q := Drivers.RunQuery(m.driver, stmt.value.sql, stmt.value.params, exec);
      Effect(c.model, c.calls + Sends(q.trace), q.outcome)
  }

  /** The statement's placeholders and its parameters agree in number. */
  predicate Binds(st: Drivers.Stmt) {
    |Pg.Pieces(st.sql)| == |st.params| + 1
  }

  /** The values `insert` receives. */
  datatype InsertValues = InsertValues(name: Value, applied: Value, migrationTime: Date, checksum: Value)

  const InsertColumns := " (name, applied, migration_time, " + "checksum) VALUES ("

  /** The text of the `insert` statement between its placeholders. */
  function InsertPieces(m: Model): seq<string> {
    ["INSERT INTO " + m.config.tableName + InsertColumns, ", ", ", ", ", ", ")"]
  }

  lemma InsertPiecesSplit(m: Model)
    requires '?' !in m.config.tableName
    ensures Pg.Pieces(Pg.JoinWith(InsertPieces(m), "?")) == InsertPieces(m)
  {
    Pg.PiecesOfJoin(InsertPieces(m));
  }

  /** The `insert` statement: the four columns, each value encoded for the
      configured driver name. A name or checksum that `String()` cannot take
      rejects the operation. */
  function InsertStatement(m: Model, v: InsertValues): (r: Result<Drivers.Stmt, Error>)
    ensures r.Ok? <==> v.name != Undefined && v.checksum != Undefined
    ensures r.Ok? ==>
      && r.value.params == [Types.StringToSQL(m.types.driver, v.name).value,
                            Types.BooleanToSQL(m.types.driver, v.applied),
                            Str(Types.DateTimeToSQL(m.types.driver, v.migrationTime)),
                            Types.StringToSQL(m.types.driver, v.checksum).value]
      && ('?' !in m.config.tableName ==> Binds(r.value))
  {
    var name :- m.types.StringSQL(v.name);
    var checksum :- m.types.StringSQL(v.checksum);
    var st := Drivers.Stmt(Pg.JoinWith(InsertPieces(m), "?"),
                           [name, m.types.BooleanSQL(v.applied), Str(m.types.DateTimeSQL(v.migrationTime)), checksum]);
    if '?' in m.config.tableName then Ok(st)
    else
      InsertPiecesSplit(m);
      Ok(st)
  }

  /** Encoded insert parameters decode back to the caller's values for
      string names and checksums and a boolean `applied`, on every driver. */
  lemma InsertParamsDecode(m: Model, v: InsertValues)
    requires v.name.Str? && v.checksum.Str? && v.applied.Bool?
    ensures InsertStatement(m, v).Ok?
    ensures var p := InsertStatement(m, v).value.params;
      && Types.StringToJS(m.types.driver, p[0]) == v.name
      && Types.BooleanToJS(m.types.driver, p[1]) == v.applied
      && Types.StringToJS(m.types.driver, p[3]) == v.checksum
  {
    Types.StringRoundTrip(m.types.driver, v.name.s);
    Types.StringRoundTrip(m.types.driver, v.checksum.s);
    Types.BooleanRoundTrip(m.types.driver, v.applied.b);
  }

  /** The text of the `update` statement between its placeholders. */
  function UpdatePieces(m: Model): seq<string> {
    ["UPDATE " + m.config.tableName + " SET " + AppliedEquals, " WHERE name = ", ""]
  }

  lemma UpdatePiecesSplit(m: Model)
    requires '?' !in m.config.tableName
    ensures Pg.Pieces(Pg.JoinWith(UpdatePieces(m), "?")) == UpdatePieces(m)
  {
    Pg.PiecesOfJoin(UpdatePieces(m));
  }

  /** The `update` statement. Its parameters are bound raw, `applied` first
      and `name` second, in the order of the two placeholders. */
  function UpdateStatement(m: Model, applied: Value, name: Value): (r: Drivers.Stmt)
    ensures r.params == [applied, name]
    ensures '?' !in m.config.tableName ==>
      var p := Pg.Pieces(r.sql);
      && Binds(r)
      && |p[0]| >= |AppliedEquals| && p[0][|p[0]| - |AppliedEquals|..] == AppliedEquals
      && p[1] == " WHERE name = "
  {
    var st := Drivers.Stmt(Pg.JoinWith(UpdatePieces(m), "?"), [applied, name]);
    if '?' in m.config.tableName then st
    else
      UpdatePiecesSplit(m);
      EndsWith("UPDATE " + m.config.tableName + " SET ", AppliedEquals);
      st
  }

  const AppliedEquals := "applied = "

  lemma EndsWith(a: string, b: string)
    ensures |a + b| >= |b| && (a + b)[|a + b| - |b|..] == b
  {
  }

  /** `sql` is `prefix`, then `table`, then `suffix`: the table a fixed
      statement reads can be cut back out of it. */
  predicate Framed(sql: string, prefix: string, table: string, suffix: string) {
    && |sql| == |prefix| + |table| + |suffix|
    && sql[..|prefix|] == prefix
    && sql[|prefix|..|sql| - |suffix|] == table
    && sql[|sql| - |suffix|..] == suffix
  }

  lemma FramedConcat(prefix: string, table: string, suffix: string)
    ensures Framed(prefix + table + suffix, prefix, table, suffix)
  {
    var s := prefix + table + suffix;
    assert s[..|prefix|] == prefix;
    assert s[|prefix|..|s| - |suffix|] == table;
    assert s[|s| - |suffix|..] == suffix;
  }

  /** Two statements framed alike name the same table only if they are the
      same statement. */
  lemma FramedInjective(s1: string, s2: string, prefix: string, t1: string, t2: string, suffix: string)
    requires Framed(s1, prefix, t1, suffix) && Framed(s2, prefix, t2, suffix)
    ensures s1 == s2 <==> t1 == t2
  {
    if t1 == t2 {
      assert s1 == s1[..|prefix|] + s1[|prefix|..|s1| - |suffix|] + s1[|s1| - |suffix|..];
      assert s2 == s2[..|prefix|] + s2[|prefix|..|s2| - |suffix|] + s2[|s2| - |suffix|..];
    }
  }

  const SelectAllFrom := "SELECT * FROM "
  const OrderByName := " ORDER BY name"
  const CountAllFrom := "SELECT COUNT(*) AS " + "count FROM "
  const DropTablePrefix := "DROP TABLE "

  lemma FixedTextsPlain()
    ensures '?' !in SelectAllFrom && '?' !in OrderByName && '?' !in CountAllFrom
  {
    assert '?' !in "SELECT COUNT(*) AS " && '?' !in "count FROM ";
  }

  lemma PlainConcat(a: string, b: string, c: string)
    requires '?' !in a && '?' !in c
    ensures '?' !in b ==> '?' !in a + b + c
  {
  }

  /** The `findAllByName` statement: every row of the configured table,
      ordered by name, with no parameters. */
  function FindAllByNameStatement(m: Model): (r: Drivers.Stmt)
    ensures r.params == []
    ensures Framed(r.sql, SelectAllFrom, m.config.tableName, OrderByName)
    ensures '?' !in m.config.tableName ==> '?' !in r.sql
  {
    var t := m.config.tableName;
    FramedConcat(SelectAllFrom, t, OrderByName);
    FixedTextsPlain();
    PlainConcat(SelectAllFrom, t, OrderByName);
    Drivers.Stmt(SelectAllFrom + t + OrderByName, [])
  }

  /** The `countAll` statement: one row whose `count` column counts the
      configured table's rows; no parameters. */
  function CountAllStatement(m: Model): (r: Drivers.Stmt)
    ensures r.params == []
    ensures Framed(r.sql, CountAllFrom, m.config.tableName, "")
    ensures '?' !in m.config.tableName ==> '?' !in r.sql
  {
    var t := m.config.tableName;
    FramedConcat(CountAllFrom, t, "");
    FixedTextsPlain();
    PlainConcat(CountAllFrom, t, "");
    Drivers.Stmt(CountAllFrom + t + "", [])
  }

  /** The `dropTable` statement: drops the configured table; no parameters. */
  function DropTableStatement(m: Model): (r: Drivers.Stmt)
    ensures r.params == []
    ensures Framed(r.sql, DropTablePrefix, m.config.tableName, "")
  {
    FramedConcat(DropTablePrefix, m.config.tableName, "");
    Drivers.Stmt(DropTablePrefix + m.config.tableName + "", [])
  }

  /** Each of the fixed statements names its table: two models build the
      same statement exactly when they are configured with the same table. */
  lemma FixedStatementsNameTheirTable(m1: Model, m2: Model)
    ensures FindAllByNameStatement(m1) == FindAllByNameStatement(m2) <==> m1.config.tableName == m2.config.tableName
    ensures CountAllStatement(m1) == CountAllStatement(m2) <==> m1.config.tableName == m2.config.tableName
    ensures DropTableStatement(m1) == DropTableStatement(m2) <==> m1.config.tableName == m2.config.tableName
  {
    var t1, t2 := m1.config.tableName, m2.config.tableName;
    FramedInjective(FindAllByNameStatement(m1).sql, FindAllByNameStatement(m2).sql, SelectAllFrom, t1, t2, OrderByName);
    FramedInjective(CountAllStatement(m1).sql, CountAllStatement(m2).sql, CountAllFrom, t1, t2, "");
    FramedInjective(DropTableStatement(m1).sql, DropTableStatement(m2).sql, DropTablePrefix, t1, t2, "");
  }

  function LastAppliedBase(m: Model): string {
    "SELECT * FROM " + m.config.tableName + " WHERE applied = true ORDER BY migration_time DESC"
  }

  const LimitOne := " LIMIT 1"

  /** The `findLastAppliedMigrations(limit)` statement: applied rows, newest
      first, cut to one exactly when `limit` is truthy. */
  function LastAppliedStatement(m: Model, limit: Value): (r: Drivers.Stmt)
    ensures r.params == []
    ensures |r.sql| >= |LastAppliedBase(m)| && r.sql[..|LastAppliedBase(m)|] == LastAppliedBase(m)
    ensures Truthy(limit) <==> |r.sql| >= |LimitOne| && r.sql[|r.sql| - |LimitOne|..] == LimitOne
  {
    var base := LastAppliedBase(m);
    assert base[|base| - |LimitOne|..] != LimitOne by {
      assert base[|base| - 1] == 'C';
    }
    if Truthy(limit) then Drivers.Stmt(base + LimitOne, [])
    else Drivers.Stmt(base, [])
  }

  /** `insert(values)`. */
  function Insert(m: Model, v: InsertValues, reply: Outcome<string>, exec: Drivers.Exec): (r: Effect<Drivers.QueryResult>)
    ensures r.outcome.Ok? ==> v.name != Undefined && v.checksum != Undefined && r.model.connected
  {
    Perform(m, reply, InsertStatement(m, v), exec)
  }

  /** `update({ name, applied })`. */
  function Update(m: Model, name: Value, applied: Value, reply: Outcome<string>, exec: Drivers.Exec): (r: Effect<Drivers.QueryResult>)
    ensures r.outcome.Ok? ==> r.model.connected
  {
    Perform(m, reply, Ok(UpdateStatement(m, applied, name)), exec)
  }

  /** `findAllByName()`: the rows the driver hands back. */
  function FindAllByName(m: Model, reply: Outcome<string>, exec: Drivers.Exec): (r: Effect<seq<Row>>)
    ensures r.outcome.Ok? ==> r.model.connected
  {
    var e := Perform(m, reply, Ok(FindAllByNameStatement(m)), exec);
    Effect(e.model, e.calls, if e.outcome.Err? then Err(e.outcome.error) else Ok(Drivers.RowsOf(e.outcome.value)))
  }

  /** `countAll()`: the first row of the answer; an empty answer makes the
      destructuring read `count` of `undefined`. */
  function CountAll(m: Model, reply: Outcome<string>, exec: Drivers.Exec): (r: Effect<Row>)
    ensures r.outcome.Ok? ==>
      var e := Perform(m, reply, Ok(CountAllStatement(m)), exec);
      e.outcome.Ok? && |Drivers.RowsOf(e.outcome.value)| > 0 && r.outcome.value == Drivers.RowsOf(e.outcome.value)[0]
  {
    var e := Perform(m, reply, Ok(CountAllStatement(m)), exec);
    if e.outcome.Err? then Effect(e.model, e.calls, Err(e.outcome.error))
    else
      var rows := Drivers.RowsOf(e.outcome.value);
      if |rows| == 0 then Effect(e.model, e.calls, Err(TypeError("Cannot read property 'count' of undefined")))
      else Effect(e.model, e.calls, Ok(rows[0]))
  }

  /** `dropTable()`. */
  function DropTable(m: Model, reply: Outcome<string>, exec: Drivers.Exec): (r: Effect<Drivers.QueryResult>)
    ensures r.outcome.Ok? ==> r.model.connected
  {
    Perform(m, reply, Ok(DropTableStatement(m)), exec)
  }

  /** `findLastAppliedMigrations(limit)`. */
  function FindLastAppliedMigrations(m: Model, limit: Value, reply: Outcome<string>, exec: Drivers.Exec): (r: Effect<seq<Row>>)
    ensures r.outcome.Ok? ==> r.model.connected
  {
    var e := Perform(m, reply, Ok(LastAppliedStatement(m, limit)), exec);
    Effect(e.model, e.calls, if e.outcome.Err? then Err(e.outcome.error) else Ok(Drivers.RowsOf(e.outcome.value)))
  }
}

=== FILE: pg.dfy ===
/** lib/db/drivers/pg.jsx: the Postgres variant's placeholder syntax, its
    schema-qualified table name, its create statement and its result shape. */
module Pg {
  import opened Text
  import opened Records

  const Name := "pg"

  const SchemaName := "migrations"

  /** The create statement around its `$$tableName$$` placeholder. */
  const CreatePrefix := "\n    CREATE SCHEMA " + "IF NOT EXISTS " + SchemaName + ";\n    CREATE TABLE " + "IF NOT EXISTS "
  const CreateSuffix :=
    " (\n"
    + "      id serial PRIMARY KEY,\n"
    + "      name character varying(255) not null,\n"
    + "      applied boolean not null,\n"
    + "      migration_time timestamp without time zone not null,\n"
    + "      checksum text not null\n"
    + "    );"

  /** The `pg` client's answer to a query. */
  datatype PgResult = PgResult(command: string, rowCount: nat, rows: seq<Row>)

  /** The texts between the `?` of a statement, in order. */
  function Pieces(s: string): (r: seq<string>)
    ensures |r| == CountChar(s, '?') + 1
    ensures forall i | 0 <= i < |r| :: '?' !in r[i]
  {
    if |s| == 0 then [""]
    else if s[0] == '?' then [""] + Pieces(s[1..])
    else
      var p := Pieces(s[1..]);
      [[s[0]] + p[0]] + p[1..]
  }

  /** Text without `?` prepended to a statement joins its first piece. */
  lemma {:induction false} PiecesPrepend(a: string, s: string)
    requires '?' !in a
    ensures Pieces(a + s) == [a + Pieces(s)[0]] + Pieces(s)[1..]
  {
    if |a| == 0 {
      assert a + s == s;
      assert a + Pieces(s)[0] == Pieces(s)[0];
    } else {
      var rest := a[1..] + s;
      PiecesPrepend(a[1..], s);
      assert a + s == [a[0]] + rest;
      PiecesCons(a[0], rest, a[1..] + Pieces(s)[0], Pieces(s)[1..]);
      HeadThenRest(a, Pieces(s)[0]);
    }
  }

  /** One character other than `?` joins the first piece. */
  lemma PiecesCons(c: char, s: string, first: string, more: seq<string>)
    requires c != '?' && Pieces(s) == [first] + more
    ensures Pieces([c] + s) == [[c] + first] + more
  {
    assert ([c] + s)[1..] == s;
  }

  lemma HeadThenRest(a: string, b: string)
    requires |a| > 0
    ensures [a[0]] + (a[1..] + b) == a + b
  {
    assert a == [a[0]] + a[1..];
  }

  /** A `?`-free text is a single piece; one `?` after it starts the next. */
  lemma PiecesAfterPlain(a: string, s: string)
    requires '?' !in a
    ensures Pieces(a) == [a]
    ensures Pieces(a + "?" + s) == [a] + Pieces(s)
  {
    PiecesPrepend(a, "");
    assert a + "" == a;
    PiecesPrepend(a, "?" + s);
    assert a + "?" + s == a + ("?" + s);
    assert ("?" + s)[1..] == s;
  }

  /** Puts the pieces back together with `sep` between consecutive ones. */
  function JoinWith(pieces: seq<string>, sep: string): string
    requires |pieces| >= 1
  {
    if |pieces| == 1 then pieces[0] else pieces[0] + sep + JoinWith(pieces[1..], sep)
  }

  /** The pieces really are a split of the statement at its `?`. */
  lemma {:induction false} PiecesJoin(s: string)
    ensures JoinWith(Pieces(s), "?") == s
  {
    if |s| > 0 {
      PiecesJoin(s[1..]);
      var p := Pieces(s[1..]);
      if s[0] == '?' {
        assert Pieces(s) == [""] + p;
        assert JoinWith([""] + p, "?") == "" + "?" + JoinWith(p, "?");
        assert s == "?" + s[1..];
      } else {
        assert Pieces(s) == [[s[0]] + p[0]] + p[1..];
        JoinWithConsHead(s[0], p);
        assert s == [s[0]] + s[1..];
      }
    }
  }

  /** Growing the first piece by one character grows the join by it. */
  lemma JoinWithConsHead(c: char, p: seq<string>)
    requires |p| >= 1
    ensures JoinWith([[c] + p[0]] + p[1..], "?") == [c] + JoinWith(p, "?")
  {
    var q := [[c] + p[0]] + p[1..];
    assert q[0] == [c] + p[0] && q[1..] == p[1..];
    if |p| > 1 {
      ConsAssoc(c, p[0], "?", JoinWith(p[1..], "?"));
    }
  }

  lemma ConsAssoc(c: char, a: string, b: string, t: string)
    ensures [c] + a + b + t == [c] + (a + b + t)
  {
  }

  /** Splitting a join of `?`-free pieces gives the pieces back. */
  lemma {:induction false} PiecesOfJoin(p: seq<string>)
    requires |p| >= 1 && forall i | 0 <= i < |p| :: '?' !in p[i]
    ensures Pieces(JoinWith(p, "?")) == p
  {
    if |p| == 1 {
      PiecesAfterPlain(p[0], "");
    } else {
      PiecesOfJoin(p[1..]);
      PiecesAfterPlain(p[0], JoinWith(p[1..], "?"));
    }
  }

  /** Pieces separated by `$k`, `$k+1`, ... */
  function Numbered(pieces: seq<string>, k: nat): string
    requires |pieces| >= 1
  {
    if |pieces| == 1 then pieces[0] else pieces[0] + "$" + Decimal(k) + Numbered(pieces[1..], k + 1)
  }

  /** The replace callback of `sql`, with its counter: `?` number k becomes `$k`. */
  function Renumber(s: string, k: nat): (r: string)
    ensures '?' !in r
    ensures '?' !in s ==> r == s
  {
    if |s| == 0 then ""
    else if s[0] == '?' then "$" + Decimal(k) + Renumber(s[1..], k + 1)
    else [s[0]] + Renumber(s[1..], k)
  }

  /** `sql(sql)`: every `?` -- inside string literals too -- becomes `$1`,
      `$2`, ... from left to right. */
  function Sql(s: string): (r: string)
    ensures '?' !in r
    ensures '?' !in s ==> r == s
  {
    Renumber(s, 1)
  }

  lemma {:induction false} RenumberIsNumbered(s: string, k: nat)
    ensures Renumber(s, k) == Numbered(Pieces(s), k)
  {
    if |s| > 0 {
      RenumberIsNumbered(s[1..], if s[0] == '?' then k + 1 else k);
      var p := Pieces(s[1..]);
      if s[0] == '?' {
        assert Pieces(s) == [""] + p;
        assert Numbered([""] + p, k) == "" + "$" + Decimal(k) + Numbered(p, k + 1);
      } else {
        assert Pieces(s) == [[s[0]] + p[0]] + p[1..];
        NumberedConsHead(s[0], p, k);
      }
    }
  }

  /** Growing the first piece by one character grows the numbered text by it. */
  lemma NumberedConsHead(c: char, p: seq<string>, k: nat)
    requires |p| >= 1
    ensures Numbered([[c] + p[0]] + p[1..], k) == [c] + Numbered(p, k)
  {
    var q := [[c] + p[0]] + p[1..];
    assert q[0] == [c] + p[0] && q[1..] == p[1..];
    if |p| > 1 {
      ConsAssoc(c, p[0], "$" + Decimal(k), Numbered(p[1..], k + 1));
    }
  }

  /** The translated statement keeps the text between placeholders, in
      order, and numbers the placeholders 1..n where n counts the `?`. */
  lemma SqlNumbersPlaceholders(s: string)
    ensures Sql(s) == Numbered(Pieces(s), 1)
    ensures |Pieces(s)| == CountChar(s, '?') + 1
    ensures JoinWith(Pieces(s), "?") == s
  {
    RenumberIsNumbered(s, 1);
    PiecesJoin(s);
  }

  /** `getTableName()`: the configured name inside the `migrations` schema. */
  function TableName(tableName: string): (r: string)
    ensures |r| == |SchemaName| + 1 + |tableName|
    ensures r[..|SchemaName| + 1] == SchemaName + "." && r[|SchemaName| + 1..] == tableName
  {
    SchemaName + "." + tableName
  }
}

=== FILE: records.dfy ===
/** The entities the core passes around: discovered migration units with
    their step files, and rows of the migration-state table. */
module Records {
  import opened Wrappers
  import opened JsValues
  import opened JsDate

  /** One SQL file of a direction; `checksum` is hash(filename, contents). */
  datatype StepFile = StepFile(filename: string, contents: string, checksum: string)

  /** The ordered files of one direction and their rolled-up checksum. */
  datatype Steps = Steps(files: seq<StepFile>, checksum: string)

  /** A discovered migration unit; `steps` counts the up files. */
  datatype Migration = Migration(name: string, up: Steps, down: Steps, steps: nat, checksum: string)

  datatype Direction = Up | Down

  /** The property name used for a direction (`migration[direction]`). */
  function DirectionName(dir: Direction): string {
    match dir
    case Up => "up"
    case Down => "down"
  }

  function StepsOf(m: Migration, dir: Direction): Steps {
    match dir
    case Up => m.up
    case Down => m.down
  }

  /** A row of the migration-state table as the driver hands it back.
      `applied` keeps whatever value the backend returned (a boolean for pg,
      possibly a number elsewhere, absent in hand-built rows). `n` is a
      property that only hand-built rows could carry; rows read from a table
      never have it. */
  datatype Row = Row(name: string, applied: Value, migrationTime: Option<Date>, checksum: string, n: Option<string>)

  function Names(ms: seq<Migration>): (r: seq<string>)
    ensures |r| == |ms|
    ensures forall i | 0 <= i < |ms| :: r[i] == ms[i].name
  {
    seq(|ms|, i requires 0 <= i < |ms| => ms[i].name)
  }
}

=== FILE: seqs.dfy ===
/** Order-related sequence notions shared by the filters and the orchestrator. */
module Seqs {

  /** `a` is obtained from `b` by deleting elements, keeping the order. */
  predicate IsSubsequence<T(==)>(a: seq<T>, b: seq<T>)
    decreases |b|
  {
    if |a| == 0 then true
    else if |b| == 0 then false
    else if a[0] == b[0] then IsSubsequence(a[1..], b[1..])
    else IsSubsequence(a, b[1..])
  }

  /** Prepending to the longer sequence keeps a subsequence. */
  lemma {:induction false} SubsequenceExtend<T>(x: T, a: seq<T>, b: seq<T>)
    requires IsSubsequence(a, b)
    ensures IsSubsequence(a, [x] + b)
    decreases |a| + |b|, 1
  {
    assert ([x] + b)[1..] == b;
    if |a| > 0 && a[0] == x {
      SubsequenceTail(a, b);
    }
  }

  lemma {:induction false} SubsequenceTail<T>(a: seq<T>, b: seq<T>)
    requires |a| > 0 && IsSubsequence(a, b)
    ensures IsSubsequence(a[1..], b)
    decreases |a| + |b|, 0
  {
    assert b == [b[0]] + b[1..];
    if a[0] == b[0] {
      SubsequenceExtend(b[0], a[1..], b[1..]);
    } else {
      SubsequenceTail(a, b[1..]);
      SubsequenceExtend(b[0], a[1..], b[1..]);
    }
  }

  /** Prepending the same element to both keeps a subsequence. */
  lemma SubsequenceCons<T>(x: T, a: seq<T>, b: seq<T>)
    requires IsSubsequence(a, b)
    ensures IsSubsequence([x] + a, [x] + b)
  {
    assert ([x] + a)[1..] == a;
    assert ([x] + b)[1..] == b;
  }

  /** `Array#reverse`, as a copy. */
  function Reverse<T>(s: seq<T>): (r: seq<T>)
    ensures |r| == |s|
    ensures forall i | 0 <= i < |s| :: r[i] == s[|s| - 1 - i]
  {
    if |s| == 0 then [] else Reverse(s[1..]) + [s[0]]
  }

  lemma {:induction false} ReverseReverse<T>(s: seq<T>)
    ensures Reverse(Reverse(s)) == s
  {
    var r := Reverse(s);
    assert forall i | 0 <= i < |s| :: Reverse(r)[i] == r[|r| - 1 - i] == s[i];
  }

  lemma ReverseMultiset<T>(s: seq<T>)
    ensures multiset(Reverse(s)) == multiset(s)
  {
    if |s| > 0 {
      assert s == [s[0]] + s[1..];
      ReverseMultiset(s[1..]);
    }
  }
}

=== FILE: text.dfy ===
/** String building blocks of JavaScript and lodash that the source relies
    on: number-to-string conversion, `_.padLeft`, `path.join` of plain
    segments, and `String.prototype.replace` with a string pattern. */
module Text {
  import opened Wrappers

  predicate IsDigit(c: char) {
    '0' <= c <= '9'
  }

  predicate AllDigits(s: string) {
    forall i | 0 <= i < |s| :: IsDigit(s[i])
  }

  function DigitChar(d: nat): (c: char)
    requires d < 10
    ensures IsDigit(c)
  {
    "0123456789"[d]
  }

  function DigitValue(c: char): (d: nat)
    requires IsDigit(c)
    ensures d < 10
  {
    c as int - '0' as int
  }

  function Pow10(k: nat): (p: nat)
    ensures p >= 1
  {
    if k == 0 then 1 else 10 * Pow10(k - 1)
  }

  /** The decimal text of a non-negative number, as `Number#toString` gives it:
      no sign, no leading zero unless the number is 0. */
  function Decimal(n: nat): (s: string)
    ensures |s| >= 1 && AllDigits(s)
    ensures |s| > 1 ==> s[0] != '0'
    ensures n < 10 <==> |s| == 1
    decreases n
  {
    if n < 10 then [DigitChar(n)] else Decimal(n / 10) + [DigitChar(n % 10)]
  }

  /** Reads a digit string back as a number; leading zeros contribute nothing. */
  function ParseDecimal(s: string): nat
    requires AllDigits(s)
    decreases |s|
  {
    if |s| == 0 then 0 else 10 * ParseDecimal(s[..|s| - 1]) + DigitValue(s[|s| - 1])
  }

  lemma {:induction false} DecimalRoundTrip(n: nat)
    ensures ParseDecimal(Decimal(n)) == n
    decreases n
  {
    if n >= 10 {
      var s := Decimal(n);
      assert s[..|s| - 1] == Decimal(n / 10);
      DecimalRoundTrip(n / 10);
    }
  }

  lemma {:induction false} ParseLeadingZero(s: string)
    requires AllDigits(s)
    ensures ParseDecimal("0" + s) == ParseDecimal(s)
    decreases |s|
  {
    if |s| > 0 {
      var t := "0" + s;
      assert t[..|t| - 1] == "0" + s[..|s| - 1];
      ParseLeadingZero(s[..|s| - 1]);
    }
  }

  /** The number of decimal digits is exactly k when 10^(k-1) <= n < 10^k. */
  lemma {:induction false} DecimalLength(n: nat, k: nat)
    requires k >= 1 && Pow10(k - 1) <= n < Pow10(k)
    ensures |Decimal(n)| == k
    decreases k
  {
    if k > 1 {
      DecimalLength(n / 10, k - 1);
    }
  }

  /** `Number#toString` of an integer-valued number. */
  function IntToString(i: int): (s: string)
    ensures i >= 0 ==> s == Decimal(i)
    ensures i < 0 ==> s == "-" + Decimal(-i)
  {
    if i < 0 then "-" + Decimal(-i) else Decimal(i)
  }

  function Repeat(c: char, k: nat): (s: string)
    ensures |s| == k
    ensures forall i | 0 <= i < k :: s[i] == c
  {
    if k == 0 then "" else [c] + Repeat(c, k - 1)
  }

  /** lodash 3 `_.padLeft(s, width, fill)` with a one-character fill: fills on
      the left up to `width`, never truncates. */
  function PadLeft(s: string, width: nat, fill: char): (r: string)
    ensures |r| == if |s| >= width then |s| else width
    ensures |r| >= |s| && r[|r| - |s|..] == s
    ensures forall i | 0 <= i < |r| - |s| :: r[i] == fill
  {
    if |s| >= width then s else Repeat(fill, width - |s|) + s
  }

  /** `path.join(a, b)` for plain segments (no `..`, no trailing slash). */
  function Join(a: string, b: string): string {
    a + "/" + b
  }

  function CountChar(s: string, c: char): (n: nat)
    ensures n <= |s|
    ensures n == 0 <==> c !in s
  {
    if |s| == 0 then 0 else (if s[0] == c then 1 else 0) + CountChar(s[1..], c)
  }

  predicate OccursAt(s: string, pat: string, i: nat) {
    i + |pat| <= |s| && s[i..i + |pat|] == pat
  }

  /** Index of the first occurrence of `pat` in `s` at or after `from`. */
  function IndexOfFrom(s: string, pat: string, from: nat): (r: Option<nat>)
    ensures r.Some? ==> from <= r.value && OccursAt(s, pat, r.value)
    ensures r.Some? ==> forall j | from <= j < r.value :: !OccursAt(s, pat, j)
    ensures r.None? ==> forall j | from <= j :: !OccursAt(s, pat, j)
    decreases |s| - from
  {
    if from + |pat| > |s| then None
    else if s[from..from + |pat|] == pat then Some(from)
    else IndexOfFrom(s, pat, from + 1)
  }

  function IndexOf(s: string, pat: string): (r: Option<nat>)
    ensures r.Some? ==> OccursAt(s, pat, r.value)
    ensures r.Some? ==> forall j | 0 <= j < r.value :: !OccursAt(s, pat, j)
    ensures r.None? ==> forall j: nat :: !OccursAt(s, pat, j)
  {
    IndexOfFrom(s, pat, 0)
  }

  /** The replacement-string patterns of `String.prototype.replace` when the
      pattern is a string: `$$`, `$&`, `` $` `` and `$'`; any other `$` is literal. */
  function Expand(repl: string, matched: string, before: string, after: string): string
    decreases |repl|
  {
    if |repl| == 0 then ""
    else if repl[0] == '$' && |repl| >= 2 && repl[1] in "$&`'" then
      (match repl[1]
       case '$' => "$"
       case '&' => matched
       case '`' => before
       case _ => after)
      + Expand(repl[2..], matched, before, after)
    else [repl[0]] + Expand(repl[1..], matched, before, after)
  }

  lemma {:induction false} ExpandPlain(repl: string, matched: string, before: string, after: string)
    requires '$' !in repl
    ensures Expand(repl, matched, before, after) == repl
    decreases |repl|
  {
    if |repl| > 0 {
      ExpandPlain(repl[1..], matched, before, after);
    }
  }

  /** `s.replace(pat, repl)`: only the first occurrence is replaced. */
  function ReplaceFirst(s: string, pat: string, repl: string): (r: string)
    ensures IndexOf(s, pat).None? ==> r == s
  {
    match IndexOf(s, pat)
    case None => s
    case Some(i) => s[..i] + Expand(repl, pat, s[..i], s[i + |pat|..]) + s[i + |pat|..]
  }

  /** Replacing the first occurrence with a `$`-free text splices that text in
      place of the occurrence; everything before it is unchanged. */
  lemma ReplaceFirstPlain(s: string, pat: string, repl: string, i: nat)
    requires '$' !in repl
    requires OccursAt(s, pat, i)
    requires forall j | 0 <= j < i :: !OccursAt(s, pat, j)
    ensures ReplaceFirst(s, pat, repl) == s[..i] + repl + s[i + |pat|..]
  {
    ExpandPlain(repl, pat, s[..i], s[i + |pat|..]);
  }
}

=== FILE: types.dfy ===
/** lib/db/types.jsx: per-driver encodings of booleans, strings and
    datetimes. A type looks up a method named after the driver and falls
    back to `default`; only booleans have an override (`mysql`). */
module Types {
  import opened Wrappers
  import opened Errors
  import opened JsValues
  import opened JsDate
  import Dates

  datatype Kind = BooleanKind | StringKind | DateTimeKind

  /** Which method `this[this.driver] || this.default` selects. */
  datatype Encoding = DefaultEncoding | MysqlEncoding

  function Dispatch(kind: Kind, driver: string): (e: Encoding)
    ensures e == MysqlEncoding <==> kind == BooleanKind && driver == "mysql"
  {
    if kind == BooleanKind && driver == "mysql" then MysqlEncoding else DefaultEncoding
  }

  /** `new BooleanType(driver, value).toSQL()`. */
  function BooleanToSQL(driver: string, value: Value): (r: Value)
    ensures driver != "mysql" ==> r == value
    ensures driver == "mysql" && value.Bool? ==> r == Num(if value.b then 1 else 0)
  {
    match Dispatch(BooleanKind, driver)
    case DefaultEncoding => value
    case MysqlEncoding => PlusZero(value)
  }

  /** `new BooleanType(driver, value).toJS()`. */
  function BooleanToJS(driver: string, value: Value): (r: Value)
    ensures driver != "mysql" ==> r == value
    ensures driver == "mysql" ==> r == Bool(Truthy(value))
    ensures Truthy(r) <==> Truthy(value)
  {
    match Dispatch(BooleanKind, driver)
    case DefaultEncoding => value
    case MysqlEncoding => Bool(Truthy(value))
  }

  /** Decoding what was encoded gives the boolean back, for every driver. */
  lemma BooleanRoundTrip(driver: string, b: bool)
    ensures BooleanToJS(driver, BooleanToSQL(driver, Bool(b))) == Bool(b)
  {
  }

  /** `new StringType(driver, value).toSQL()`: null stays null, anything else
      goes through `toString()`, which throws on `undefined`. */
  function StringToSQL(driver: string, value: Value): (r: Result<Value, Error>)
    ensures r.Err? <==> value == Undefined
    ensures value == Null ==> r == Ok(Null)
    ensures r.Ok? && value != Null ==> r.value.Str?
  {
    match Dispatch(StringKind, driver)
    case _ =>
      if value == Null then Ok(Null)
      else
        var s :- ToStringOf(value);
        Ok(Str(s))
  }

  /** `new StringType(driver, value).toJS()`: the stored value as it is, on
      every driver. */
  function StringToJS(driver: string, value: Value): (r: Value)
    ensures r == value
  {
    match Dispatch(StringKind, driver)
    case _ => value
  }

  /** A string survives encoding and decoding unchanged, for every driver. */
  lemma StringRoundTrip(driver: string, s: string)
    ensures StringToSQL(driver, Str(s)).Ok?
    ensures StringToJS(driver, StringToSQL(driver, Str(s)).value) == Str(s)
  {
  }

  /** `new DateTimeType(driver, date).toSQL()`: `Y-M-D h:m:s.ms` built from
      the padded component list. Whatever the date, the literal opens with the
      year as printed and a `-`, and closes with `.` and the milliseconds. */
  function DateTimeToSQL(driver: string, date: Date): (r: string)
    ensures var l := Dates.PaddedDateList(date);
      r == l[0] + "-" + l[1] + "-" + l[2] + " " + l[3] + ":" + l[4] + ":" + l[5] + "." + l[6]
    ensures var y := Text.IntToString(date.year);
      |r| > |y| && r[..|y| + 1] == y + "-"
    ensures var ms := Text.Decimal(date.ms);
      |r| > |ms| && r[|r| - |ms| - 1..] == "." + ms
  {
    match Dispatch(DateTimeKind, driver)
    case _ =>
      var l := Dates.PaddedDateList(date);
      DateTimeEnds(l[0], l[1], l[2], l[3], l[4], l[5], l[6]);
      l[0] + "-" + l[1] + "-" + l[2] + " " + l[3] + ":" + l[4] + ":" + l[5] + "." + l[6]
  }

  lemma DateTimeEnds(y: string, mo: string, dd: string, h: string, mi: string, se: string, ms: string)
    ensures var r := y + "-" + mo + "-" + dd + " " + h + ":" + mi + ":" + se + "." + ms;
      && |r| > |y| && r[..|y| + 1] == y + "-"
      && |r| > |ms| && r[|r| - |ms| - 1..] == "." + ms
  {
    var tail := mo + "-" + dd + " " + h + ":" + mi + ":" + se;
    var r := y + "-" + mo + "-" + dd + " " + h + ":" + mi + ":" + se + "." + ms;
    assert r == (y + "-") + tail + ("." + ms);
    assert r[..|y| + 1] == y + "-";
    assert r[|r| - |ms| - 1..] == "." + ms;
  }

  /** `new DateTimeType(driver, date).toJS()`. */
  function DateTimeToJS(driver: string, date: Date): Date {
    match Dispatch(DateTimeKind, driver)
    case _ => date
  }

  /** The datetime literal does not depend on the driver. */
  lemma DateTimeDriverIndependent(d1: string, d2: string, date: Date)
    ensures DateTimeToSQL(d1, date) == DateTimeToSQL(d2, date)
  {
  }

  /** For an in-range date with a four-digit year, the literal is the snake
      date's digits re-punctuated: the date part and the time part appear in
      fixed positions, and the milliseconds follow the `.` unpadded. */
  lemma DateTimeMatchesSnake(driver: string, date: Date)
    requires InRange(date) && FourDigitYear(date)
    ensures var r := DateTimeToSQL(driver, date);
      var s := Dates.Snake(date);
      && |r| == 20 + |Text.Decimal(date.ms)|
      && r[..4] + r[5..7] + r[8..10] == s[..8]
      && r[11..13] + r[14..16] + r[17..19] == s[9..]
      && r[4] == '-' && r[7] == '-' && r[10] == ' ' && r[13] == ':' && r[16] == ':' && r[19] == '.'
      && r[20..] == Text.Decimal(date.ms)
  {
    Dates.SnakeHalves(date);
    Dates.PaddedDateListShape(date);
    var l := Dates.PaddedDateList(date);
    SliceDateTimeParts(l[0], l[1], l[2], l[3], l[4], l[5], l[6]);
  }

  lemma SliceDateTimeParts(y: string, mo: string, dd: string, h: string, mi: string, se: string, ms: string)
    requires |y| == 4 && |mo| == 2 && |dd| == 2 && |h| == 2 && |mi| == 2 && |se| == 2
    ensures var r := y + "-" + mo + "-" + dd + " " + h + ":" + mi + ":" + se + "." + ms;
      && |r| == 20 + |ms|
      && r[..4] + r[5..7] + r[8..10] == y + mo + dd
      && r[11..13] + r[14..16] + r[17..19] == h + mi + se
      && r[4] == '-' && r[7] == '-' && r[10] == ' ' && r[13] == ':' && r[16] == ':' && r[19] == '.'
      && r[20..] == ms
  {
    var r := y + "-" + mo + "-" + dd + " " + h + ":" + mi + ":" + se + "." + ms;
    assert r[..4] == y && r[5..7] == mo && r[8..10] == dd;
    assert r[11..13] == h && r[14..16] == mi && r[17..19] == se;
  }

  /** `new TypeWrapper(driver)`: the three constructors bound to one driver. */
  datatype TypeWrapper = TypeWrapper(driver: string) {
    function BooleanSQL(value: Value): Value {
      BooleanToSQL(driver, value)
    }

    function StringSQL(value: Value): Result<Value, Error> {
      StringToSQL(driver, value)
    }

    function DateTimeSQL(date: Date): string {
      DateTimeToSQL(driver, date)
    }
  }
}

=== FILE: util.dfy ===
/** lib/util.jsx: two-digit padding and the directory-name form of a date. */
module Util {
  import opened Text
  import opened JsDate

  /** `_.padLeft(num, 2, '0')` on a non-negative number. */
  function TwoDigits(n: nat): (r: string)
    ensures |r| >= 2 && AllDigits(r)
    ensures n <= 9 ==> r == "0" + [DigitChar(n)]
    ensures n >= 10 ==> r == Decimal(n)
  {
    PadLeft(Decimal(n), 2, '0')
  }

  /** Padding never loses information: the digits read back as `n`. */
  lemma TwoDigitsRoundTrip(n: nat)
    ensures ParseDecimal(TwoDigits(n)) == n
  {
    DecimalRoundTrip(n);
    if n <= 9 {
      ParseLeadingZero(Decimal(n));
    }
  }

  lemma TwoDigitsLength(n: nat)
    requires n < 100
    ensures |TwoDigits(n)| == 2
  {
    if n >= 10 {
      DecimalLength(n, 2);
    }
  }

  /** `util.snakeDate`: the year as printed, then month..seconds padded. */
  function SnakeDate(d: Date): (r: string)
    ensures var y := IntToString(d.year); |r| >= |y| + 11 && r[..|y|] == y
  {
    var year := IntToString(d.year);
    var month := TwoDigits(d.month0 + 1);
    var day := TwoDigits(d.day);
    var hours := TwoDigits(d.hours);
    var minutes := TwoDigits(d.minutes);
    var seconds := TwoDigits(d.seconds);
    SnakeText(year, month, day, hours, minutes, seconds);
    year + month + day + "_" + hours + minutes + seconds
  }

  lemma SnakeText(year: string, month: string, day: string, hours: string, minutes: string, seconds: string)
    ensures var s := year + month + day + "_" + hours + minutes + seconds;
      |s| == |year| + |month| + |day| + 1 + |hours| + |minutes| + |seconds| && s[..|year|] == year
  {
    var s := year + month + day + "_" + hours + minutes + seconds;
    assert s == year + (month + day + "_" + hours + minutes + seconds);
  }
}

=== FILE: wrappers.dfy ===
/** Failure-compatible Option/Result/Outcome types used for the source's
    `undefined` lookups and thrown errors. */
module Wrappers {

  datatype Option<+T> = None | Some(value: T) {
    predicate IsFailure() {
      None?
    }

    function PropagateFailure<U>(): Option<U>
      requires None?
    {
      None
    }

    function Extract(): T
      requires Some?
    {
      value
    }
  }

  datatype Result<+R, +E> = Ok(value: R) | Err(error: E) {
    predicate IsFailure() {
      Err?
    }

    function PropagateFailure<U>(): Result<U, E>
      requires Err?
    {
      Err(error)
    }

    function Extract(): R
      requires Ok?
    {
      value
    }
  }

  datatype Outcome<+E> = Pass | Fail(error: E) {
    predicate IsFailure() {
      Fail?
    }

    function PropagateFailure<U>(): Result<U, E>
      requires Fail?
    {
      Err(error)
    }
  }
}
